=== FILE: README.md ===
# A Dafny model of the boxmot detection-replay script

`boxmot/main.py` replays stored object detections through a multi-object
tracker. It reads every `*.png` frame of a camera directory in sorted order.
For each frame it loads a text file of detections, one line per object
(`car 0.9 [10,10,10,50,50,50,50,10]`: a label, a score and four corner
points). It turns each line into an axis-aligned box with a score and a
class id, feeds the boxes to the tracker and draws the tracks it returns.
Every frame it could read goes into an output video.

This project models the script's own logic as pure Dafny functions:

- `Parser.ParseDetection` is `parse_detection`. It covers the
  `strip().split(maxsplit=2)` of the line, the bracket and comma handling
  of the coordinates, the `isdigit` filter, the three rejections, the
  min/max box, and the label registry.
- `Registry` is the `label_map` / `label_id_counter` pair. It is an
  interning table that gives class ids in first-seen order. The program
  keeps it in globals; here it is a value threaded through every call.
- `Loader.GetDetectionsForFrame` is `get_detections_for_frame`. It covers
  the `splitext` / `join` path arithmetic, the missing-file case,
  `readlines`, and parsing line by line while threading the registry.
- `Pipeline.Main` is the `__main__` block, written as a fold (`RunFrames`)
  over `Frames(listing)`, which is `sorted(glob('*.png'))`.
  `Pipeline.Run` is the same loop written as a `while` loop.
  - The outside world is passed in as an `Env`: `cv2.imread`, the
    detection files, `float`, `tracker.update` and `get_color`.
  - What the loop does to the writer and the tracker is recorded as a
    trace of `Event`s.
- `Render.AnnotateTrack` models what lines 121-130 draw for one track: the
  `astype('int')` truncation, the rectangle corners, the label text, the
  label's position and its colour.
- `Text`, `Ints` and `Order` hold the parts of Python that the script
  relies on:
  - `str.strip`, `str.split` with and without `maxsplit`, `str.replace`,
    `str.join`;
  - `isdigit`, `int()` and `str()` on integers;
  - Python's string order and `sorted`.
- `Scenario` states the whole program's run on three frames, end to end:
  - one frame has no detection file;
  - one frame has the car line above;
  - one frame cannot be read.

Three details of the code shape what the model states:

- The loader does not drop rejected lines. Line 68 keeps the `None` that
  `parse_detection` returns for each of them, in the line's place.
  `Loader.ParseLinesEntry` and `Loader.ParseLinesPresent` state this. The
  list is handed to `np.array` at line 112, which the model does not
  follow (see "## Left out").
- Line 122 casts the confidence to an integer before line 129 formats it
  with `:.2f`, so a confidence in [0, 1) always reads `0.00`
  (`Render.ConfidenceShownAsZero`).
- Line 103 cuts the frame name at its *first* dot, and the loader then
  applies `splitext` to what is left (line 63). `Loader.FrameStem` and
  `Loader.DetectionPathOfImage` model the two steps as written.

## Model

| member | source | states |
|---|---|---|
| Parser.ParseDetection | boxmot/main.py:21-59 | a line yields a detection exactly when it has three fields, `float` accepts the score and exactly eight integer coordinates survive the filter; the detection is the tight box of the four points, with that score, the label registered and its id as class; a rejected line leaves the registry unchanged |
| Parser.Fields | boxmot/main.py:24 | `strip().split(maxsplit=2)` gives at most three pieces, each non-empty and starting with a non-space; with three, the label and score text are single words |
| Parser.Coordinates | boxmot/main.py:32-33 | no more coordinates than tokens; when every token passes the integer filter, each is kept in place as its `int()`; when none passes, the list is empty |
| Parser.Check | boxmot/main.py:24-43 | the checks in the code's order: a line passes exactly when it is accepted; too few fields is reported before the score is tried; a bad score names its token and is reported only with three fields; a wrong count comes with a good score and the coordinates found; a pass carries the label, the tight box and the score |
| Parser.MinOf | boxmot/main.py:40-41 | `.min()` of a non-empty column is an element of it and no larger than any element |
| Parser.MaxOf | boxmot/main.py:42-43 | `.max()` of a non-empty column is an element of it and no smaller than any element |
| Parser.BoundingBox | boxmot/main.py:38-43 | the box is the tight axis-aligned box of the four (x, y) points, with min <= max on both axes |
| Parser.ParsePreservesValid | boxmot/main.py:50-52 | a parse keeps the registry invariant: the ids in use are exactly 0 up to the counter, one label each |
| Parser.ParseRegisters | boxmot/main.py:50-54 | after a call the registry has the label registered if the line was accepted, and is unchanged otherwise |
| Parser.FieldsAreTokens | boxmot/main.py:24-29 | with at least three whitespace tokens, the label is the first token, the score text is the second, and the coordinate text splits into all the others |
| Parser.TooFewTokensRejected | boxmot/main.py:24-26 | a line with fewer than three tokens after stripping is rejected and the registry is unchanged |
| Parser.CoordinatesOfFormatted | boxmot/main.py:32-33 | the bracketed, comma-separated text of any integer list, the empty one (`[]`) included, yields exactly that list after the bracket strip, comma replacement, split and `isdigit` filter |
| Parser.SplitCommaJoined | boxmot/main.py:32-33 | comma-joined words, commas replaced by spaces and split on whitespace, give the words back |
| Parser.StripLine | boxmot/main.py:24 | stripping removes exactly the newline `readlines` keeps, and nothing else |
| Parser.SplitThree | boxmot/main.py:24 | `split(maxsplit=2)` of `label score rest` gives the label, the score text and the whole rest, inner spaces included |
| Parser.FieldsOfLine | boxmot/main.py:24 | a label, a score text and a third field, with or without the trailing newline, split into exactly those three |
| Parser.ParseFormattedLine | boxmot/main.py:21-59 | round trip: a line written from a label, a score text and eight integers parses back to the box of those integers, the score and the label's id, registering the label; if `float` rejects the score the line is rejected and the registry is unchanged |
| Parser.ParseAcceptedLine | boxmot/main.py:21-55 | the accepted case of the round trip, with box and score named |
| Parser.ParseRejectedLine | boxmot/main.py:29-59 | the rejected case: a bad score text rejects the whole line |
| Parser.CarLineParses | boxmot/main.py:21-55 | `car 0.9 [10,10,10,50,50,50,50,10]` on a fresh registry gives box (10, 10, 50, 50), score 0.9, class 0, and registers `car` as 0 |
| Parser.BadScoreLineRejected | boxmot/main.py:29-59 | `car abc [10,...]` is rejected and the registry is unchanged |
| Registry.Register | boxmot/main.py:50-52 | a new label gets the counter's value and the counter goes up by one; a known label changes nothing; old entries are never changed or dropped |
| Registry.RegisterPreservesValid | boxmot/main.py:50-52 | registering keeps the ids in use exactly 0 up to the counter, one label each |
| Registry.ClassIdAfterRegister | boxmot/main.py:54 | the `get` fallback to 0 never fires after registration: the class id is the registered id, old or new |
| Registry.ClassId | boxmot/main.py:54 | `label_map.get(label, 0)` is an id the registry holds, or the fallback 0 for an unknown label; in a non-empty valid registry it is below the counter (what it returns right after registration is `ClassIdAfterRegister`) |
| Registry.RegisterAllAppend | boxmot/main.py:50-52 | registering one list of labels and then another is registering their concatenation |
| Registry.RegisterFirst | boxmot/main.py:50-52 | the first label registered in the process gets id 0 |
| Registry.RegisterAll | boxmot/main.py:50-52 | registering a list of labels only extends the registry |
| Registry.FirstSeenOrder | boxmot/main.py:50-52 | after registering a sequence of labels from scratch, each label's id is the number of distinct labels seen before its first occurrence, and the counter is the number of distinct labels |
| Ints.ParseInt | boxmot/main.py:33 | `int()` of an unsigned digit token is non-negative, of a signed one non-positive (its round trip with `str` is `Ints.ParseFormatInt`) |
| Ints.ParseFormatInt | boxmot/main.py:33 | `int()` reads back every integer's `str()` as that integer |
| Loader.FrameStem | boxmot/main.py:103 | `name.split('.')[0]` is the longest prefix of the name without a dot |
| Loader.RFind | boxmot/main.py:63 | the last index of the character, or -1 when it is absent |
| Loader.SplitExtRoot | boxmot/main.py:63 | `splitext(p)[0]` is a prefix of `p` |
| Loader.SplitExtWithoutDot | boxmot/main.py:63 | `splitext` leaves a name without a dot unchanged |
| Loader.SplitExtDropsExtension | boxmot/main.py:63 | `splitext` of `stem.ext` gives `stem` |
| Loader.JoinPath | boxmot/main.py:63 | `os.path.join` ends with its second argument, replaces the first when the second is absolute, and otherwise extends the first |
| Loader.DetectionPath | boxmot/main.py:63 | the detection path ends in `.txt`, and for a relative identifier it is `<det_dir>/<splitext root>.txt` |
| Loader.DetectionPathOfImage | boxmot/main.py:63 | for a frame name cut at its first dot as line 103 does, the detection file of frame `name` is `<det_dir>/<name up to its first dot>.txt` |
| Loader.ReadLines | boxmot/main.py:66-67 | `readlines` pieces are non-empty; each holds a newline only as its last character, and every piece but the last ends with one |
| Loader.ConcatReadLines | boxmot/main.py:66-67 | the lines `readlines` returns concatenate back to the file's text |
| Loader.ReadLinesEmpty | boxmot/main.py:66-68 | an empty file has no lines |
| Loader.ReadLinesSingle | boxmot/main.py:66-67 | a text whose only newline, if any, is at its end is one line |
| Loader.ParseLines | boxmot/main.py:68 | the list has one entry per line of the file |
| Loader.ParseLinesEntry | boxmot/main.py:68 | entry `i` is what `parse_detection` returns for line `i`, given the registry the earlier lines left behind |
| Loader.ParseLinesPresent | boxmot/main.py:68 | entry `i` is a detection exactly when line `i` is accepted, and `None` otherwise; rejected lines keep their place |
| Loader.ParseLinesRegisters | boxmot/main.py:62-68 | the registry after a file is the one before, with the labels of its accepted lines registered in file order |
| Loader.ParseLinesPreservesValid | boxmot/main.py:62-68 | loading a file keeps the registry valid |
| Loader.GetDetectionsForFrame | boxmot/main.py:62-68 | a missing file gives `[]` with the registry unchanged; an existing one gives one entry per line `readlines` returns |
| Loader.DetectionsOfFile | boxmot/main.py:62-68 | for an existing file, entry `i` is what `parse_detection` returns for line `i` on the registry the first `i` lines left, and the final registry has the accepted lines' labels registered in file order |
| Loader.EmptyDetections | boxmot/main.py:64-68 | the loader returns `[]` exactly when the file is missing or empty |
| Render.Trunc | boxmot/main.py:122 | `astype('int')` rounds toward zero: below for non-negative values, above for negative ones |
| Render.TruncNegate | boxmot/main.py:122 | truncation is symmetric about zero |
| Render.TruncWhole | boxmot/main.py:122 | a whole number is cast to itself |
| Render.FixedTwo | boxmot/main.py:129 | `{conf:.2f}` of an integer ends in `.00`, and what precedes it reads back with `int()` as the integer |
| Render.LabelText | boxmot/main.py:129 | the label starts with `ID: <id>, Conf: ` and ends with the class |
| Render.AnnotateTrack | boxmot/main.py:122-130 | the corners are the track's coordinates cast toward zero; the label shows the cast id, confidence and class; it sits 10 pixels above the first corner; box and label take the colour of the cast id |
| Render.Annotate | boxmot/main.py:121-130 | one annotation per track, in track order, each from its own track |
| Render.LabelTextIsJoin | boxmot/main.py:129 | the label is its six words joined by single spaces |
| Render.SplitLabel | boxmot/main.py:129 | the label splits on whitespace into exactly its six words |
| Render.LabelReadsBack | boxmot/main.py:122-130 | the id, the confidence and the class can be read back from the label with `int()` |
| Render.ConfidenceShownAsZero | boxmot/main.py:122-130 | every confidence in [0, 1) is shown as `0.00` |
| Order.LessIrreflexive | boxmot/main.py:91 | no string sorts before itself |
| Order.LessTransitive | boxmot/main.py:91 | the string order is transitive |
| Order.LessTotal | boxmot/main.py:91 | two different strings are ordered one way or the other |
| Order.LessAsymmetric | boxmot/main.py:91 | and only one way |
| Order.SortNames | boxmot/main.py:91 | `sorted` returns a sorted permutation of its input |
| Order.SortedUnique | boxmot/main.py:91 | two sorted permutations of the same names are equal |
| Order.SortIgnoresListingOrder | boxmot/main.py:91 | the frames visited do not depend on the order of the directory listing |
| Order.PngNames | boxmot/main.py:91 | the glob keeps exactly the listed names that end in `.png`, each as often as it is listed, and no other name |
| Order.Frames | boxmot/main.py:91 | the frame list is sorted and is a permutation of the listed `*.png` names: each as often as it is listed, no other name |
| Order.FramesOfPngs | boxmot/main.py:91 | a listing of `*.png` names is kept whole, each name as often as listed |
| Pipeline.ImagePath | boxmot/main.py:90-95 | `str(image_path)` is the images directory, a slash and the frame name |
| Pipeline.Load | boxmot/main.py:103 | the frame's detections are loaded from the file of its name cut at the first dot: none, with the registry unchanged, when there is no file, otherwise one entry per line (its registry is `LoadRegisters`) |
| Pipeline.LoadRegisters | boxmot/main.py:103 | loading a frame registers the labels of its file's well-formed lines, in line order |
| Pipeline.StepRegisters | boxmot/main.py:95-103 | a readable frame registers its file's labels; an unreadable one registers nothing |
| Pipeline.RunRegisters | boxmot/main.py:93-103 | the registry is shared by the whole loop: it ends as the starting registry with the labels of every readable frame's file registered, frame after frame |
| Pipeline.RunExtends | boxmot/main.py:50-52 | the loop never drops or renumbers a label |
| Pipeline.MainRegisters | boxmot/main.py:12-13 | the program's registry is the empty one with all the run's labels registered, so each label's id is the number of distinct labels seen before its first occurrence over the whole run, and the counter is their number |
| Pipeline.Advance | boxmot/main.py:106-135 | a read frame is always written last and the loader's registry kept; with no detections it is written bare and the tracker is untouched; otherwise the tracker is updated with the list first, its new state kept, and the frame written with every track it returned drawn on it, or bare when it returned none |
| Pipeline.Step | boxmot/main.py:95-135 | an unreadable frame changes nothing; a readable one adds one or two events, ending with its write, and takes the registry its detection file leaves |
| Pipeline.RunFrames | boxmot/main.py:93-135 | the loop only appends to the trace, at most two events per frame |
| Pipeline.Main | boxmot/main.py:84-138 | the trace opens the writer first and releases it last, with at most two events per frame in between |
| Pipeline.RunThree | boxmot/main.py:93-135 | the loop over three frames is three steps, in order |
| Pipeline.AdvanceEvents | boxmot/main.py:103-135 | a readable frame keeps the earlier events and adds one write, preceded by one tracker update exactly when its detection list is non-empty; the writer is neither opened nor released |
| Pipeline.StepEvents | boxmot/main.py:93-135 | an unreadable frame adds nothing; a readable one adds one write, and an update exactly when it has detections |
| Pipeline.StepWithoutFile | boxmot/main.py:103-109 | a readable frame without a detection file is written as read, with no marks, and the tracker is not called |
| Pipeline.StepWithOneLine | boxmot/main.py:103-135 | a readable frame with a one-line file feeds the tracker exactly that line's parse, then writes the frame annotated with the tracks returned (unannotated when there are none), and keeps the registry that parse leaves |
| Pipeline.RunWritten | boxmot/main.py:93-135 | the loop writes exactly the readable frames, in order |
| Pipeline.RunTracked | boxmot/main.py:103-115 | the loop updates the tracker exactly for the readable frames with a non-empty detection list, in order |
| Pipeline.RunKeepsWriter | boxmot/main.py:93-135 | the loop neither opens nor releases the writer, and leaves the events before it untouched |
| Pipeline.RunPaired | boxmot/main.py:112-135 | the loop keeps every tracker update immediately followed by the write of its frame |
| Pipeline.RunPreservesValid | boxmot/main.py:93-135 | the loop keeps the registry valid |
| Pipeline.ReadableSorted | boxmot/main.py:91-100 | skipping unreadable frames keeps the frames sorted |
| Pipeline.MainWriter | boxmot/main.py:84-138 | the writer is opened first with `XVID`, 10 fps and 1920x1080, released last, once each |
| Pipeline.MainFrames | boxmot/main.py:91-135 | the frames written are the readable `*.png` frames in sorted order, once each; the tracker is called exactly for those with a non-empty detection list |
| Pipeline.MainPaired | boxmot/main.py:112-135 | in the whole run every tracker update is immediately followed by the write of its frame, and every annotated write comes right after its update |
| Pipeline.MainValid | boxmot/main.py:50-52 | the registry the program ends with is valid |
| Pipeline.Run | boxmot/main.py:84-138 | the `for` loop computes the same run as the fold: readable frames written, and one release at the end |
| Scenario.ScenarioFrames | boxmot/main.py:91 | a listing of `f1.png`, `f2.png`, `f3.png` in any order is visited as `f1`, `f2`, `f3` |
| Scenario.FirstLoad | boxmot/main.py:63-65 | a frame without a detection file loads nothing and leaves the registry alone |
| Scenario.SecondLoad | boxmot/main.py:63-68 | the car file loads one detection, box (10, 10, 50, 50) with score 0.9 and class 0, and registers `car` |
| Scenario.ScenarioLoop | boxmot/main.py:93-135 | a readable frame without detections, a readable one whose file loads one detection, and an unreadable one: the first is written as read, the second gives one tracker update with that detection and then its write, annotated with the tracks returned, and the third leaves no trace; the registry is the one the second load left |
| Scenario.EndToEnd | boxmot/main.py:84-138 | the whole run on the three frames, listed in any order: open, write `f1` unannotated, update with the car box (10, 10, 50, 50), score 0.9, class 0, write `f2` annotated with the tracks returned, release; the registry ends as `{car: 0}` and the tracker in the state the update returned |

The `Text` and `Ints` modules state the Python string and integer
behaviour the rows above rest on. Their members carry their own contracts:

- `Text.Split` and `Text.SplitJoin`: words joined by spaces split back into
  the same words.
- `Text.SplitMax`: `split(maxsplit=k)` gives at most `k + 1` pieces, each
  non-empty and starting with a non-space, all but the last single words.
- `Text.SplitMaxAgreesWithSplit`: `split(maxsplit=k)` agrees with `split()`
  on the first `k` words and keeps the rest whole.
- `Text.ReplaceSeparator`: replacing the separator of a join re-joins with
  the new one.
- `Ints.ParseFormatInt`: `int(str(n)) == n`.
- `Ints.KeepInts`: the filter keeps no more values than tokens, keeps
  every token in place when all pass, and nothing when none does.
- `Ints.KeepIntsOfFormatted`: the `isdigit` filter keeps every formatted
  integer.

## Left out

- File and console I/O are not modelled:
  - the `print`s of skipped lines and unreadable images (lines 58 and 99);
  - the `tqdm` progress bar;
  - the writes to disk.
  A detection file is a map entry whose text is what `open(path, "r")`
  delivers, and newline translation is left to that text.
- A directory at the detection path: `os.path.exists` is true for it and
  `open` would raise. The model only knows files.
- Errors from `open` and `readlines` (lines 66-67) are not modelled. A
  `PermissionError`, or a `UnicodeDecodeError` for a file not in the
  locale's encoding, escapes `get_detections_for_frame` and ends the run;
  in the model every file in the map reads as its text.
- Python's `float` syntax: the score conversion is the `ScoreParser`
  parameter, `None` where `float` raises.
- Render.Trunc: line 122's `astype('int')` casts to a 64-bit integer.
  For a finite track value at or beyond 2^63 in size, numpy gives a
  platform-dependent result with a `RuntimeWarning` (the smallest 64-bit
  integer on x86-64), and the drawing calls get that value. `Trunc` gives
  the exact truncation of every real.
- `nan` and `inf`: `float` accepts them, but a `real` cannot hold them, so
  whatever a `ScoreParser` returns for them differs from Python's result.
  The same holds for non-finite track values that line 122 casts.
- Coordinates are unbounded integers. Line 38 stores them in a numpy
  array, whose dtype changes or which raises for values outside the
  64-bit range, from 2^63 up or below -2^63.
- Python's limit on integer conversion is not modelled: since Python 3.11
  `int()` raises for a token of more than 4300 digits, so
  `parse_detection` returns `None` where the model accepts the line.
- `str.isdigit` is modelled for ASCII digits only. Unicode decimal digits
  such as `３` or `٣` pass both `isdigit` and `int`, so Python keeps them
  as coordinates while the model drops the token. Other Unicode digits
  that `isdigit` accepts but `int` rejects are not modelled either.
- The tracker's algorithm and the BotSort constructor are not modelled
  (lines 73-81: device choice and weights). `tracker.update` is the
  `update` parameter of `Env`, with the tracker's state as a type
  parameter.
- `tracker.update` raising (line 115) is not modelled: `update` is a
  total function of `Env`.
- numpy's conversion of the detection list (line 112) is not modelled; the
  list is handed to `update` as it is. Since NumPy 1.24, `np.array` raises
  `ValueError` on a list that mixes detections and `None`s, for instance
  from a file with one good and one rejected line. Nothing catches it, so
  the run stops before line 138 and the writer is never released. The
  model does not include this abort. Only an all-`None` list, such as a
  file of blank lines, becomes an array that reaches `update`.
- Pipeline.MainWriter: "released once" holds for runs in which line 112
  does not raise; the abort above is outside the model.
- OpenCV's pixels are not modelled:
  - `cv2.imread` is a parameter; an image is a type parameter;
  - `cv2.resize` and the drawing of rectangles and text are recorded as
    annotations on a written frame, not rendered;
  - the line thickness 2, the font `FONT_HERSHEY_SIMPLEX` and its scale
    0.5 (lines 126 and 130) are not recorded in an annotation;
  - the unused `inds` of line 118 is dropped.
- `get_color` (lines 16-18) is the `color` parameter. Its seeded random
  draw, and the error `np.random.seed` raises for any id outside
  [0, 2^32 - 1], are not modelled. Only its range (each channel in
  0..254, since `randint` excludes its upper bound) is kept, in the
  `Channel` type.
- Render.FixedTwo: `f'{conf:.2f}'` is applied to an integer, which prints
  exactly `n.00`. Integers beyond 2^53, where the float conversion would
  round, are not modelled.
- Loader.SplitExtRoot: its contract states only that the root is a prefix.
  The exact behaviour is stated on the inputs the program produces by
  Loader.SplitExtWithoutDot and Loader.SplitExtDropsExtension.

=== FILE: ints.dfy ===
/** Integer tokens as the detection parser sees them: the filter
    `val.isdigit() or (val[0] == '-' and val[1:].isdigit())`, the conversion
    `int(val)`, and Python's `str(n)` as the inverse used to state round trips.
    Digits are the ASCII digits `0`-`9`. */
module Ints {

  predicate IsDigit(c: char) {
    '0' <= c <= '9'
  }

  /** Python's `s.isdigit()` restricted to ASCII digits: false on the empty string. */
  predicate IsDigits(s: string) {
    s != [] && forall i :: 0 <= i < |s| ==> IsDigit(s[i])
  }

  /** The token filter of the coordinate list: all digits, or a minus sign
      followed by at least one digit. */
  predicate IsIntToken(t: string) {
    IsDigits(t) || (t != [] && t[0] == '-' && IsDigits(t[1..]))
  }

  /** The value of a run of decimal digits, most significant first. */
  function DigitsValue(s: string): nat
    requires forall i :: 0 <= i < |s| ==> IsDigit(s[i])
  {
    if s == [] then 0
    else
      assert IsDigit(s[|s| - 1]);
      DigitsValue(s[..|s| - 1]) * 10 + (s[|s| - 1] as int - '0' as int)
  }

  /** `int(t)` for a token that passed the filter. */
  function ParseInt(t: string): (n: int)
    requires IsIntToken(t)
    ensures IsDigits(t) ==> n >= 0
    ensures !IsDigits(t) ==> n <= 0
  {
    if IsDigits(t) then DigitsValue(t) else -(DigitsValue(t[1..]) as int)
  }

  function DigitChar(d: nat): (c: char)
    requires d < 10
    ensures IsDigit(c) && c as int - '0' as int == d
  {
    ('0' as int + d) as char
  }

  /** Python's `str(n)` for a non-negative `n`: its decimal digits, no leading zeros. */
  function FormatNat(n: nat): (s: string)
    ensures IsDigits(s)
    ensures |s| > 1 ==> s[0] != '0'
  {
    if n < 10 then [DigitChar(n)] else FormatNat(n / 10) + [DigitChar(n % 10)]
  }

  /** Python's `str(n)`. */
  function FormatInt(n: int): (s: string)
    ensures IsIntToken(s)
  {
    if n < 0 then "-" + FormatNat(-n) else FormatNat(n)
  }

  /** Reading back the digits of `n` gives `n`. */
  lemma {:induction false} DigitsValueOfFormatNat(n: nat)
    ensures DigitsValue(FormatNat(n)) == n
  {
    if n >= 10 {
      var s := FormatNat(n);
      assert s[..|s| - 1] == FormatNat(n / 10);
      DigitsValueOfFormatNat(n / 10);
    }
  }

  /** `int(str(n)) == n`. */
  lemma ParseFormatInt(n: int)
    ensures ParseInt(FormatInt(n)) == n
  {
    if n < 0 {
      var s := FormatInt(n);
      assert s[1..] == FormatNat(-n);
      assert !IsDigits(s) by { assert !IsDigit(s[0]); }
      DigitsValueOfFormatNat(-n);
    } else {
      DigitsValueOfFormatNat(n);
    }
  }

  /** `[int(val) for val in tokens if <filter>]`: the values of the tokens
      that pass the filter, in token order. */
  function KeepInts(tokens: seq<string>): (r: seq<int>)
    ensures |r| <= |tokens|
    ensures (forall i :: 0 <= i < |tokens| ==> IsIntToken(tokens[i])) ==>
      |r| == |tokens| && forall i :: 0 <= i < |tokens| ==> r[i] == ParseInt(tokens[i])
    ensures (forall i :: 0 <= i < |tokens| ==> !IsIntToken(tokens[i])) ==> r == []
  {
    if tokens == [] then []
    else (if IsIntToken(tokens[0]) then [ParseInt(tokens[0])] else []) + KeepInts(tokens[1..])
  }

  /** Keeping integers commutes with concatenation: kept values stay in
      token order. */
  lemma {:induction false} KeepIntsAppend(a: seq<string>, b: seq<string>)
    ensures KeepInts(a + b) == KeepInts(a) + KeepInts(b)
  {
    if a == [] {
      assert a + b == b;
    } else {
      var head := if IsIntToken(a[0]) then [ParseInt(a[0])] else [];
      assert (a + b)[0] == a[0] && (a + b)[1..] == a[1..] + b;
      assert KeepInts(a + b) == head + KeepInts(a[1..] + b);
      assert KeepInts(a) == head + KeepInts(a[1..]);
      KeepIntsAppend(a[1..], b);
      assert head + (KeepInts(a[1..]) + KeepInts(b)) == (head + KeepInts(a[1..])) + KeepInts(b);
    }
  }

  /** A token that fails the filter is dropped without trace, wherever it stands. */
  lemma KeepIntsDropsNonInteger(a: seq<string>, t: string, b: seq<string>)
    requires !IsIntToken(t)
    ensures KeepInts(a + [t] + b) == KeepInts(a + b)
  {
    KeepIntsAppend(a + [t], b);
    KeepIntsAppend(a, [t]);
    KeepIntsAppend(a, b);
  }

  /** Python's `[str(n) for n in xs]`. */
  function FormatAll(xs: seq<int>): (r: seq<string>)
    ensures |r| == |xs|
    ensures forall i :: 0 <= i < |xs| ==> r[i] == FormatInt(xs[i])
  {
    if xs == [] then [] else [FormatInt(xs[0])] + FormatAll(xs[1..])
  }

  /** Formatting integers and keeping the integer tokens gives them all back. */
  lemma {:induction false} KeepIntsOfFormatted(xs: seq<int>)
    ensures KeepInts(FormatAll(xs)) == xs
  {
    if xs != [] {
      var r := FormatAll(xs);
      assert r[1..] == FormatAll(xs[1..]);
      ParseFormatInt(xs[0]);
      KeepIntsOfFormatted(xs[1..]);
    }
  }
}

=== FILE: loader.dfy ===
/** `get_detections_for_frame` (boxmot/main.py) and the path arithmetic
    around it: the frame name is cut at its first `.` by the caller, the
    loader drops an extension with `os.path.splitext`, appends `.txt`, joins
    the result onto the detections directory, and parses the file line by
    line, threading the label registry through the lines in order. */
module Loader {
  import opened Results
  import opened Registry
  import opened Parser

  /** The default `det_dir` of the loader. */
  const DetectionsDir: string := "/datasets/eris/detections"

  /** The detection files that exist, by path, with their text as `open(path, "r")`
      delivers it. A path absent from the map is one `os.path.exists` denies. */
  type Files = map<string, string>

  /** The loader's result: the list it returns and the registry after it. */
  datatype Loaded = Loaded(dets: seq<Option<Detection>>, reg: Registry)

  /** Line 103, `image_path.name.split('.')[0]`: the name up to its first dot. */
  function FrameStem(name: string): (stem: string)
    ensures stem <= name
    ensures '.' !in stem
    ensures stem == name || name[|stem|] == '.'
  {
    if name == [] || name[0] == '.' then [] else [name[0]] + FrameStem(name[1..])
  }

  /** Python's `s.rfind(c)`: the last index holding `c`, or -1. */
  function RFind(s: string, c: char): (i: int)
    ensures -1 <= i < |s|
    ensures 0 <= i ==> s[i] == c
    ensures forall j :: i < j < |s| ==> s[j] != c
  {
    if s == [] then -1
    else if s[|s| - 1] == c then |s| - 1
    else RFind(s[..|s| - 1], c)
  }

  /** `os.path.splitext(p)[0]` for POSIX paths: the last dot of the last
      path component starts the extension, unless every character of the
      component before it is a dot (a leading-dot name has no extension). */
  function SplitExtRoot(p: string): (root: string)
    ensures root <= p
  {
    var sep := RFind(p, '/');
    var dot := RFind(p, '.');
    if sep < dot && exists i :: sep + 1 <= i < dot && p[i] != '.' then p[..dot] else p
  }

  /** `os.path.join(a, b)` for POSIX paths: an absolute `b` replaces `a`;
      otherwise a `/` is inserted unless `a` is empty or already ends in one. */
  function JoinPath(a: string, b: string): (p: string)
    ensures |b| <= |p| && p[|p| - |b|..] == b
    ensures b != [] && b[0] == '/' ==> p == b
    ensures b == [] || b[0] != '/' ==> a <= p
  {
    if b != [] && b[0] == '/' then b
    else if a == [] || a[|a| - 1] == '/' then a + b
    else a + "/" + b
  }

  /** Line 63: the detection file of a frame identifier. It ends in `.txt`,
      and a relative identifier gives a file of the detections directory. */
  function DetectionPath(frame: string): (p: string)
    ensures |p| >= 4 && p[|p| - 4..] == ".txt"
    ensures frame == [] || frame[0] != '/' ==> p == DetectionsDir + "/" + SplitExtRoot(frame) + ".txt"
  {
    DetectionsDirShape();
    JoinText(DetectionsDir, SplitExtRoot(frame), frame);
    JoinPath(DetectionsDir, SplitExtRoot(frame) + ".txt")
  }

  /** Joining a directory without a trailing `/` and `<root>.txt`, where
      `root` is a prefix of `frame`: the path ends in `.txt`, and when
      `frame` is relative the `/` goes between the two. Stated over a plain
      directory so that the solver does not expand the literal. */
  lemma JoinText(dir: string, root: string, frame: string)
    requires dir != [] && dir[|dir| - 1] != '/'
    requires root <= frame
    ensures var p := JoinPath(dir, root + ".txt");
      && |p| >= 4 && p[|p| - 4..] == ".txt"
      && (frame == [] || frame[0] != '/' ==> p == dir + "/" + root + ".txt")
  {
    var p := JoinPath(dir, root + ".txt");
    assert p[|p| - 4..] == (root + ".txt")[|root|..];
    if frame == [] || frame[0] != '/' {
      assert root == [] || root[0] == frame[0];
      JoinFile(dir, root, ".txt");
    }
  }

  /** Python's `f.readlines()`: the text cut after every newline, each
      piece keeping its newline; the last piece may lack one. */
  function ReadLines(text: string): (lines: seq<string>)
    ensures forall i :: 0 <= i < |lines| ==> lines[i] != []
    ensures forall i :: 0 <= i < |lines| ==> '\n' !in lines[i][..|lines[i]| - 1]
    ensures forall i :: 0 <= i < |lines| - 1 ==> lines[i][|lines[i]| - 1] == '\n'
    decreases |text|
  {
    if text == [] then []
    else
      var n := LineLength(text);
      [text[..n]] + ReadLines(text[n..])
  }

  /** The length of the first line of a non-empty text, its newline included. */
  function LineLength(text: string): (n: nat)
    requires text != []
    ensures 0 < n <= |text|
    ensures '\n' !in text[..n - 1]
    ensures n < |text| ==> text[n - 1] == '\n'
  {
    if text[0] == '\n' || |text| == 1 then 1
    else
      var m := LineLength(text[1..]);
      assert text[1..][..m - 1] == text[1..m];
      1 + m
  }

  /** The lines joined back together. */
  function Concat(lines: seq<string>): string {
    if lines == [] then [] else lines[0] + Concat(lines[1..])
  }

  /** Cutting a text into lines loses nothing and reorders nothing. */
  lemma {:induction false} ConcatReadLines(text: string)
    ensures Concat(ReadLines(text)) == text
    decreases |text|
  {
    if text != [] {
      var n := LineLength(text);
      var lines := ReadLines(text);
      assert lines[1..] == ReadLines(text[n..]);
      ConcatReadLines(text[n..]);
      assert text == text[..n] + text[n..];
    }
  }

  /** Only the empty text has no lines. */
  lemma ReadLinesEmpty(text: string)
    ensures ReadLines(text) == [] <==> text == []
  {
  }

  /** A text with no newline before its last character is one line. */
  lemma ReadLinesSingle(text: string)
    requires text != [] && '\n' !in text[..|text| - 1]
    ensures ReadLines(text) == [text]
  {
    var n := LineLength(text);
    assert text[..n] == text && text[n..] == [];
  }

  /** One call of a line parser: the line and the registry before the
      call, to the entry and the registry after it. */
  type LineParser = (string, Registry) -> Parsed

  /** The lines parsed in order by `step`, the registry of each call being
      the one the previous call left. */
  function Scan(lines: seq<string>, g: Registry, step: LineParser): (r: Loaded)
    ensures |r.dets| == |lines|
    decreases |lines|
  {
    if lines == [] then Loaded([], g)
    else
      var prev := Scan(lines[..|lines| - 1], g, step);
      var p := step(lines[|lines| - 1], prev.reg);
      Loaded(prev.dets + [p.det], p.reg)
  }

  /** Entry `i` of a scan is what `step` makes of line `i` given the
      registry the first `i` lines left behind. */
  lemma {:induction false} ScanEntry(lines: seq<string>, g: Registry, step: LineParser, i: nat)
    requires i < |lines|
    ensures Scan(lines, g, step).dets[i] == step(lines[i], Scan(lines[..i], g, step).reg).det
    decreases |lines|
  {
    var n := |lines| - 1;
    var p := lines[..n];
    if i < n {
      ScanEntry(p, g, step, i);
      assert p[i] == lines[i] && p[..i] == lines[..i];
    } else {
      assert p == lines[..i];
    }
  }

  /** `parse_detection` as a line parser. */
  function ParseStep(parseScore: ScoreParser): LineParser {
    (line: string, reg: Registry) => ParseDetection(line, reg, parseScore)
  }

  /** Line 68: every line parsed in order, the registry of each call being
      the one the previous call left. `None` entries are kept. */
  function ParseLines(lines: seq<string>, g: Registry, parseScore: ScoreParser): (r: Loaded)
    ensures |r.dets| == |lines|
  {
    Scan(lines, g, ParseStep(parseScore))
  }

  /** A file of one line gives one entry. */
  lemma ParseLinesSingle(line: string, g: Registry, parseScore: ScoreParser)
    ensures var p := ParseDetection(line, g, parseScore);
      ParseLines([line], g, parseScore) == Loaded([p.det], p.reg)
  {
    ScanSingle(line, g, ParseStep(parseScore));
  }

  lemma ScanSingle(line: string, g: Registry, step: LineParser)
    ensures Scan([line], g, step) == Loaded([step(line, g).det], step(line, g).reg)
  {
    assert [line][..0] == [];
  }

  /** Lines 62-68. A missing file gives `[]` and leaves the registry alone;
      an existing one gives one entry per line. */
  function GetDetectionsForFrame(frame: string, files: Files, g: Registry, parseScore: ScoreParser): (r: Loaded)
    ensures DetectionPath(frame) !in files ==> r == Loaded([], g)
    ensures DetectionPath(frame) in files ==> |r.dets| == |ReadLines(files[DetectionPath(frame)])|
  {
    var path := DetectionPath(frame);
    if path !in files then Loaded([], g) else ParseLines(ReadLines(files[path]), g, parseScore)
  }

  /** Entry `i` of the result is what `parse_detection` returns for line `i`
      given the registry the first `i` lines left behind: a later line never
      changes an earlier entry. */
  lemma ParseLinesEntry(lines: seq<string>, g: Registry, parseScore: ScoreParser, i: nat)
    requires i < |lines|
    ensures ParseLines(lines, g, parseScore).dets[i]
         == ParseDetection(lines[i], ParseLines(lines[..i], g, parseScore).reg, parseScore).det
  {
    ScanEntry(lines, g, ParseStep(parseScore), i);
  }

  /** Lines 62-68 for an existing file: one entry per line, entry `i` being
      what `parse_detection` returns for line `i` on the registry the first
      `i` lines left, and the registry ends with the labels of the accepted
      lines registered in file order. */
  lemma DetectionsOfFile(frame: string, files: Files, g: Registry, parseScore: ScoreParser)
    requires DetectionPath(frame) in files
    ensures var lines := ReadLines(files[DetectionPath(frame)]);
      var r := GetDetectionsForFrame(frame, files, g, parseScore);
      && |r.dets| == |lines|
      && (forall i :: 0 <= i < |lines| ==>
            r.dets[i] == ParseDetection(lines[i], ParseLines(lines[..i], g, parseScore).reg, parseScore).det)
      && r.reg == RegisterAll(g, AcceptedLabels(lines, parseScore))
  {
    var lines := ReadLines(files[DetectionPath(frame)]);
    forall i | 0 <= i < |lines|
      ensures ParseLines(lines, g, parseScore).dets[i]
           == ParseDetection(lines[i], ParseLines(lines[..i], g, parseScore).reg, parseScore).det
    {
      ParseLinesEntry(lines, g, parseScore, i);
    }
    ParseLinesRegisters(lines, g, parseScore);
  }

  /** Entry `i` is present exactly when line `i` is well formed. */
  lemma ParseLinesPresent(lines: seq<string>, g: Registry, parseScore: ScoreParser, i: nat)
    requires i < |lines|
    ensures ParseLines(lines, g, parseScore).dets[i].Some? <==> Accepts(lines[i], parseScore)
  {
    ParseLinesEntry(lines, g, parseScore, i);
  }

  /** The labels of the well-formed lines, in line order: the ones the
      parser registers. */
  ghost function AcceptedLabels(lines: seq<string>, parseScore: ScoreParser): seq<string> {
    if lines == [] then []
    else
      var last := lines[|lines| - 1];
      AcceptedLabels(lines[..|lines| - 1], parseScore)
        + (if Accepts(last, parseScore) then [Fields(last)[0]] else [])
  }

  /** Loading a file registers the labels of its well-formed lines, in
      order, and nothing else. */
  lemma {:induction false} ParseLinesRegisters(lines: seq<string>, g: Registry, parseScore: ScoreParser)
    ensures ParseLines(lines, g, parseScore).reg == RegisterAll(g, AcceptedLabels(lines, parseScore))
    decreases |lines|
  {
    if lines != [] {
      var p := lines[..|lines| - 1];
      var last := lines[|lines| - 1];
      ParseLinesRegisters(p, g, parseScore);
      var before := ParseLines(p, g, parseScore).reg;
      ParseRegisters(last, before, parseScore);
      assert ParseLines(lines, g, parseScore).reg == ParseDetection(last, before, parseScore).reg;
      var labels := AcceptedLabels(p, parseScore);
      if Accepts(last, parseScore) {
        var ext := labels + [Fields(last)[0]];
        assert ext[..|ext| - 1] == labels;
        assert AcceptedLabels(lines, parseScore) == ext;
      } else {
        assert AcceptedLabels(lines, parseScore) == labels;
      }
    }
  }

  /** Loading keeps the registry invariant. */
  lemma {:induction false} ParseLinesPreservesValid(lines: seq<string>, g: Registry, parseScore: ScoreParser)
    requires Valid(g)
    ensures Valid(ParseLines(lines, g, parseScore).reg)
    decreases |lines|
  {
    if lines != [] {
      var p := lines[..|lines| - 1];
      ParseLinesPreservesValid(p, g, parseScore);
      ParsePreservesValid(lines[|lines| - 1], ParseLines(p, g, parseScore).reg, parseScore);
    }
  }

  /** The loader returns `[]` exactly when the file is missing or empty. */
  lemma EmptyDetections(frame: string, files: Files, g: Registry, parseScore: ScoreParser)
    ensures GetDetectionsForFrame(frame, files, g, parseScore).dets == []
        <==> DetectionPath(frame) !in files || files[DetectionPath(frame)] == []
  {
    var path := DetectionPath(frame);
    if path in files {
      ReadLinesEmpty(files[path]);
    }
  }

  /** The stem of `<stem>.<rest>` is `<stem>`. */
  lemma FrameStemOf(name: string, stem: string)
    requires stem <= name && '.' !in stem && |stem| < |name| && name[|stem|] == '.'
    ensures FrameStem(name) == stem
  {
    var r := FrameStem(name);
    assert r == name[..|r|] && stem == name[..|stem|];
  }

  /** A name without dots has no extension to drop. */
  lemma SplitExtWithoutDot(p: string)
    requires '.' !in p
    ensures SplitExtRoot(p) == p
  {
  }

  /** `splitext` drops a single extension from a plain file name. */
  lemma SplitExtDropsExtension(stem: string, ext: string)
    requires stem != [] && '.' !in stem && '/' !in stem && '/' !in ext && '.' !in ext
    ensures SplitExtRoot(stem + "." + ext) == stem
  {
    var p := stem + "." + ext;
    assert p[|stem|] == '.';
    assert forall j :: |stem| < j < |p| ==> p[j] == ext[j - |stem| - 1];
    assert RFind(p, '.') == |stem|;
    assert forall j :: 0 <= j < |p| ==> p[j] != '/';
    assert p[0] == stem[0] && stem[0] != '.';
    assert p[..|stem|] == stem;
  }

  /** Lines 63 and 103 together: the detection file of the image `name` is
      `<det_dir>/<name up to its first dot>.txt`. */
  lemma DetectionPathOfImage(name: string)
    requires '/' !in name
    ensures DetectionPath(FrameStem(name)) == DetectionsDir + "/" + FrameStem(name) + ".txt"
  {
    var stem := FrameStem(name);
    SplitExtWithoutDot(stem);
    if stem != [] {
      assert stem[0] == name[0];
    }
    DetectionsDirShape();
    JoinFile(DetectionsDir, stem, ".txt");
  }

  /** The detection directory is not empty and has no trailing `/`. */
  lemma DetectionsDirShape()
    ensures DetectionsDir != [] && DetectionsDir[|DetectionsDir| - 1] != '/'
  {
  }

  /** Joining a directory without a trailing `/` and a relative file name
      puts one `/` between them. */
  lemma JoinFile(dir: string, stem: string, ext: string)
    requires dir != [] && dir[|dir| - 1] != '/'
    requires stem + ext != [] && (stem + ext)[0] != '/'
    ensures JoinPath(dir, stem + ext) == dir + "/" + stem + ext
  {
    assert dir + "/" + (stem + ext) == dir + "/" + stem + ext;
  }
}

=== FILE: order.dfy ===
/** The frame list of the main loop (boxmot/main.py):
    `sorted(images_path.glob('*.png'))`. All frames sit in one directory, so
    ordering the paths is ordering their names, and Python orders strings
    by code point, a proper prefix first. The directory listing is an input
    in whatever order the file system gives it. */
module Order {

  /** Python's `a < b` on strings. */
  predicate Less(a: string, b: string) {
    if a == [] then b != []
    else if b == [] then false
    else if a[0] != b[0] then a[0] < b[0]
    else Less(a[1..], b[1..])
  }

  /** Python's `a <= b` on strings. */
  predicate LessEq(a: string, b: string) {
    a == b || Less(a, b)
  }

  lemma {:induction false} LessIrreflexive(a: string)
    ensures !Less(a, a)
  {
    if a != [] {
      LessIrreflexive(a[1..]);
    }
  }

  lemma {:induction false} LessTransitive(a: string, b: string, c: string)
    requires Less(a, b) && Less(b, c)
    ensures Less(a, c)
  {
    if a != [] && a[0] == b[0] && b[0] == c[0] {
      LessTransitive(a[1..], b[1..], c[1..]);
    }
  }

  /** Two different strings are ordered one way or the other. */
  lemma {:induction false} LessTotal(a: string, b: string)
    requires a != b
    ensures Less(a, b) || Less(b, a)
  {
    if a != [] && b != [] && a[0] == b[0] {
      assert a == [a[0]] + a[1..] && b == [b[0]] + b[1..];
      LessTotal(a[1..], b[1..]);
    }
  }

  /** ... and only one way. */
  lemma {:induction false} LessAsymmetric(a: string, b: string)
    requires Less(a, b)
    ensures !Less(b, a)
  {
    if a != [] && b != [] && a[0] == b[0] {
      LessAsymmetric(a[1..], b[1..]);
    }
  }

  lemma LessEqTransitive(a: string, b: string, c: string)
    requires LessEq(a, b) && LessEq(b, c)
    ensures LessEq(a, c)
  {
    if a != b && b != c {
      LessTransitive(a, b, c);
    }
  }

  lemma LessEqAntisymmetric(a: string, b: string)
    requires LessEq(a, b) && LessEq(b, a)
    ensures a == b
  {
    if a != b {
      LessAsymmetric(a, b);
    }
  }

  /** Every string is ordered against every other. */
  lemma LessEqTotal(a: string, b: string)
    ensures LessEq(a, b) || LessEq(b, a)
  {
    if a != b {
      LessTotal(a, b);
    }
  }

  predicate Sorted(s: seq<string>) {
    forall i, j :: 0 <= i < j < |s| ==> LessEq(s[i], s[j])
  }

  /** `x` put into its place in the sorted `s`. */
  function Insert(x: string, s: seq<string>): (r: seq<string>)
    requires Sorted(s)
    ensures multiset(r) == multiset(s) + multiset{x}
    ensures Sorted(r)
  {
    if s == [] then [x]
    else if LessEq(x, s[0]) then
      InsertFront(x, s);
      [x] + s
    else
      LessEqTotal(x, s[0]);
      var t := Insert(x, s[1..]);
      InsertBehind(x, s, t);
      assert s == [s[0]] + s[1..];
      [s[0]] + t
  }

  /** The first case of `Insert`: `x` goes in front. */
  lemma InsertFront(x: string, s: seq<string>)
    requires Sorted(s) && s != [] && LessEq(x, s[0])
    ensures Sorted([x] + s)
  {
    var r := [x] + s;
    forall i, j | 0 <= i < j < |r| ensures LessEq(r[i], r[j]) {
      if i == 0 && j > 1 {
        LessEqTransitive(x, s[0], s[j - 1]);
      }
    }
  }

  /** The second case of `Insert`: `s[0]` stays in front of the rest with
      `x` put into it. */
  lemma InsertBehind(x: string, s: seq<string>, t: seq<string>)
    requires Sorted(s) && s != [] && LessEq(s[0], x)
    requires Sorted(t) && multiset(t) == multiset(s[1..]) + multiset{x}
    ensures Sorted([s[0]] + t)
  {
    var r := [s[0]] + t;
    forall i, j | 0 <= i < j < |r| ensures LessEq(r[i], r[j]) {
      if i == 0 {
        var y := t[j - 1];
        assert y in multiset(t);
        if y != x {
          assert y in multiset(s[1..]);
          var k :| 0 <= k < |s[1..]| && s[1..][k] == y;
          assert s[k + 1] == y;
        }
      }
    }
  }

  /** `sorted(names)`. */
  function SortNames(names: seq<string>): (r: seq<string>)
    ensures Sorted(r)
    ensures multiset(r) == multiset(names)
  {
    if names == [] then []
    else
      assert names == [names[0]] + names[1..];
      Insert(names[0], SortNames(names[1..]))
  }

  /** Two sorted arrangements of the same strings start alike. */
  lemma SortedSameFirst(a: seq<string>, b: seq<string>)
    requires Sorted(a) && Sorted(b) && multiset(a) == multiset(b) && a != []
    ensures b != [] && a[0] == b[0]
  {
    assert a[0] in multiset(b);
    var i :| 0 <= i < |b| && b[i] == a[0];
    assert b[0] in multiset(a);
    var j :| 0 <= j < |a| && a[j] == b[0];
    assert LessEq(b[0], a[0]) by { if i > 0 { assert LessEq(b[0], b[i]); } }
    assert LessEq(a[0], b[0]) by { if j > 0 { assert LessEq(a[0], a[j]); } }
    LessEqAntisymmetric(a[0], b[0]);
  }

  /** Taking the first element off both sides keeps the multisets equal. */
  lemma SameRest(a: seq<string>, b: seq<string>)
    requires a != [] && b != [] && a[0] == b[0] && multiset(a) == multiset(b)
    ensures multiset(a[1..]) == multiset(b[1..])
  {
    assert a == [a[0]] + a[1..] && b == [b[0]] + b[1..];
    assert multiset(a) == multiset{a[0]} + multiset(a[1..]);
    assert multiset(b) == multiset{a[0]} + multiset(b[1..]);
    assert multiset(a[1..]) == multiset(a) - multiset{a[0]};
    assert multiset(b[1..]) == multiset(b) - multiset{a[0]};
  }

  /** A sorted sequence is fixed by its elements: two sorted arrangements of
      the same strings are the same sequence. */
  lemma {:induction false} SortedUnique(a: seq<string>, b: seq<string>)
    requires Sorted(a) && Sorted(b) && multiset(a) == multiset(b)
    ensures a == b
    decreases |a|
  {
    if a != [] {
      SortedSameFirst(a, b);
      SameRest(a, b);
      SortedUnique(a[1..], b[1..]);
      assert a == [a[0]] + a[1..] && b == [b[0]] + b[1..];
    } else {
      assert |b| == |multiset(b)| == 0;
    }
  }

  /** The frames visited do not depend on the order of the listing. */
  lemma SortIgnoresListingOrder(xs: seq<string>, ys: seq<string>)
    requires multiset(xs) == multiset(ys)
    ensures SortNames(xs) == SortNames(ys)
  {
    SortedUnique(SortNames(xs), SortNames(ys));
  }

  /** Whether `name` matches the pattern `*.png`. */
  predicate IsPng(name: string) {
    |name| >= 4 && name[|name| - 4..] == ".png"
  }

  /** The names of the listing that match `*.png`, in listing order. */
  function PngNames(listing: seq<string>): (r: seq<string>)
    ensures forall i :: 0 <= i < |r| ==> IsPng(r[i])
    ensures forall x :: x in listing && IsPng(x) <==> x in r
    ensures forall x :: multiset(r)[x] == if IsPng(x) then multiset(listing)[x] else 0
  {
    if listing == [] then []
    else
      assert listing == [listing[0]] + listing[1..];
      (if IsPng(listing[0]) then [listing[0]] else []) + PngNames(listing[1..])
  }

  /** A listing of `*.png` names is kept whole. */
  lemma {:induction false} PngNamesAll(listing: seq<string>)
    requires forall i :: 0 <= i < |listing| ==> IsPng(listing[i])
    ensures PngNames(listing) == listing
  {
    if listing != [] {
      PngNamesAll(listing[1..]);
      assert listing == [listing[0]] + listing[1..];
    }
  }

  /** Line 91: the frames in the order the loop visits them. */
  function Frames(listing: seq<string>): (r: seq<string>)
    ensures Sorted(r)
    ensures forall x :: x in r <==> x in listing && IsPng(x)
    ensures forall x :: multiset(r)[x] == if IsPng(x) then multiset(listing)[x] else 0
  {
    var r := SortNames(PngNames(listing));
    assert forall x :: x in r <==> x in multiset(r);
    r
  }

  /** When every name of the listing matches `*.png`, the frames are the
      listing sorted, each name as often as it is listed. */
  lemma FramesOfPngs(listing: seq<string>)
    requires forall i :: 0 <= i < |listing| ==> IsPng(listing[i])
    ensures multiset(Frames(listing)) == multiset(listing)
  {
    PngNamesAll(listing);
  }
}

=== FILE: parser.dfy ===
/** `parse_detection` (boxmot/main.py): turns one line
    `<label> <score> [x1,y1,x2,y2,x3,y3,x4,y4]` into
    `[x_min, y_min, x_max, y_max, score, class_id]`, or into `None` when the
    line is malformed. Every check comes before the registry is touched, so a
    rejected line leaves the registry as it was. */
module Parser {
  import opened Results
  import opened Text
  import opened Ints
  import opened Registry

  /** The list the function returns: the axis-aligned box of the polygon,
      the score and the class id of the label. */
  datatype Detection = Detection(xMin: int, yMin: int, xMax: int, yMax: int, score: real, classId: nat)

  datatype Box = Box(xMin: int, yMin: int, xMax: int, yMax: int)

  /** Why a line is rejected: the three `ValueError`s the function catches. */
  datatype Rejection =
    | MissingFields
    | BadScore(token: string)
    | WrongCoordinateCount(coords: seq<int>)

  /** What the checks of a line produce before the label is registered. */
  datatype Candidate = Candidate(name: string, box: Box, score: real)

  /** The outcome of one call: the returned value and the registry after it. */
  datatype Parsed = Parsed(det: Option<Detection>, reg: Registry)

  /** Python's `float(token)`, `None` where it raises. Float syntax is not
      modelled; the caller supplies the conversion. */
  type ScoreParser = string -> Option<real>

  /** Line 24, `line.strip().split(maxsplit=2)`: label, score text, and the
      rest of the line. */
  function Fields(line: string): (parts: seq<string>)
    ensures |parts| <= 3
    ensures forall i :: 0 <= i < |parts| ==> parts[i] != [] && !IsSpace(parts[i][0])
    ensures |parts| == 3 ==> IsWord(parts[0]) && IsWord(parts[1])
  {
    SplitMax(Strip(line, IsSpace), 2)
  }

  predicate IsBracket(c: char) {
    c == '[' || c == ']'
  }

  /** Line 32 and the `split()` of line 33: strip outer brackets, turn
      commas into spaces, split on whitespace. */
  function CoordTokens(text: string): seq<string> {
    Split(Strip(Replace(Strip(text, IsBracket), ',', ' '), IsSpace))
  }

  /** Lines 32-33: the integer tokens of the coordinate text, in order.
      There are no more values than tokens; when every token passes the
      filter, each is kept in place as its `int()`; when none does, nothing
      is. */
  function Coordinates(text: string): (coords: seq<int>)
    ensures var tokens := CoordTokens(text);
      && |coords| <= |tokens|
      && ((forall i :: 0 <= i < |tokens| ==> IsIntToken(tokens[i])) ==>
            |coords| == |tokens| && forall i :: 0 <= i < |tokens| ==> coords[i] == ParseInt(tokens[i]))
      && ((forall i :: 0 <= i < |tokens| ==> !IsIntToken(tokens[i])) ==> coords == [])
  {
    KeepInts(CoordTokens(text))
  }

  ghost predicate IsMin(m: int, xs: seq<int>) {
    m in xs && forall x :: x in xs ==> m <= x
  }

  ghost predicate IsMax(m: int, xs: seq<int>) {
    m in xs && forall x :: x in xs ==> x <= m
  }

  /** `points[:, 0]` of line 38: the x coordinates of the four points. */
  function Xs(c: seq<int>): seq<int>
    requires |c| == 8
  {
    [c[0], c[2], c[4], c[6]]
  }

  /** `points[:, 1]`: the y coordinates of the four points. */
  function Ys(c: seq<int>): seq<int>
    requires |c| == 8
  {
    [c[1], c[3], c[5], c[7]]
  }

  /** `b` is the tight axis-aligned box of the four points in `c`. */
  ghost predicate IsBoundingBox(b: Box, c: seq<int>)
    requires |c| == 8
  {
    IsMin(b.xMin, Xs(c)) && IsMax(b.xMax, Xs(c)) && IsMin(b.yMin, Ys(c)) && IsMax(b.yMax, Ys(c))
  }

  /** numpy's `.min()` of a non-empty column. */
  function MinOf(xs: seq<int>): (m: int)
    requires xs != []
    ensures IsMin(m, xs)
  {
    if |xs| == 1 then xs[0]
    else
      var m := MinOf(xs[1..]);
      assert forall x :: x in xs ==> x == xs[0] || x in xs[1..];
      if xs[0] <= m then xs[0] else m
  }

  /** numpy's `.max()` of a non-empty column. */
  function MaxOf(xs: seq<int>): (m: int)
    requires xs != []
    ensures IsMax(m, xs)
  {
    if |xs| == 1 then xs[0]
    else
      var m := MaxOf(xs[1..]);
      assert forall x :: x in xs ==> x == xs[0] || x in xs[1..];
      if xs[0] >= m then xs[0] else m
  }

  /** Lines 38-43: the box of the four (x, y) points. */
  function BoundingBox(c: seq<int>): (b: Box)
    requires |c| == 8
    ensures IsBoundingBox(b, c)
    ensures b.xMin <= b.xMax && b.yMin <= b.yMax
  {
    Box(MinOf(Xs(c)), MinOf(Ys(c)), MaxOf(Xs(c)), MaxOf(Ys(c)))
  }

  /** Lines 24-43: every check the line must pass, in the order the code
      makes them. A line passes exactly when it is accepted; a short line
      fails on the field count before the score is looked at; a bad score
      fails before the coordinates are looked at; a candidate carries the
      label, the tight box of the coordinates and the score. */
  function Check(line: string, parseScore: ScoreParser): (r: Result<Candidate, Rejection>)
    ensures r.Success? <==> Accepts(line, parseScore)
    ensures r == Failure(MissingFields) <==> |Fields(line)| < 3
    ensures r.Failure? && r.error.BadScore? ==>
      |Fields(line)| == 3 && r.error.token == Fields(line)[1] && parseScore(Fields(line)[1]).None?
    ensures r.Failure? && r.error.WrongCoordinateCount? ==>
      |Fields(line)| == 3 && parseScore(Fields(line)[1]).Some?
      && r.error.coords == Coordinates(Fields(line)[2]) && |r.error.coords| != 8
    ensures r.Success? ==>
      var parts := Fields(line);
      && r.value.name == parts[0]
      && IsBoundingBox(r.value.box, Coordinates(parts[2]))
      && Some(r.value.score) == parseScore(parts[1])
  {
    var parts := Fields(line);
    if |parts| < 3 then Failure(MissingFields)
    else
      match parseScore(parts[1])
      case None => Failure(BadScore(parts[1]))
      case Some(score) =>
        var coords := Coordinates(parts[2]);
        if |coords| != 8 then Failure(WrongCoordinateCount(coords))
        else Success(Candidate(parts[0], BoundingBox(coords), score))
  }

  /** The line has a label, a score `float` accepts, and exactly eight
      integer coordinates. */
  ghost predicate Accepts(line: string, parseScore: ScoreParser) {
    var parts := Fields(line);
    |parts| == 3 && parseScore(parts[1]).Some? && |Coordinates(parts[2])| == 8
  }

  /** `parse_detection(line)` with the registry before the call. */
  function ParseDetection(line: string, g: Registry, parseScore: ScoreParser): (r: Parsed)
    ensures r.det.Some? <==> Accepts(line, parseScore)
    ensures r.det.None? ==> r.reg == g
    ensures r.det.Some? ==>
      var parts := Fields(line);
      var d := r.det.value;
      && IsBoundingBox(Box(d.xMin, d.yMin, d.xMax, d.yMax), Coordinates(parts[2]))
      && d.xMin <= d.xMax && d.yMin <= d.yMax
      && parseScore(parts[1]) == Some(d.score)
      && r.reg == Register(g, parts[0])
      && d.classId == r.reg.ids[parts[0]]
  {
    match Check(line, parseScore)
    case Failure(_) => Parsed(None, g)
    case Success(c) =>
      var g' := Register(g, c.name);
      Parsed(Some(Detection(c.box.xMin, c.box.yMin, c.box.xMax, c.box.yMax, c.score, ClassId(g', c.name))), g')
  }

  /** A parse never breaks the registry invariant. */
  lemma ParsePreservesValid(line: string, g: Registry, parseScore: ScoreParser)
    requires Valid(g)
    ensures Valid(ParseDetection(line, g, parseScore).reg)
  {
    var r := ParseDetection(line, g, parseScore);
    if r.det.Some? {
      RegisterPreservesValid(g, Fields(line)[0]);
    }
  }

  /** The registry after a call: the label registered if the line is well
      formed, untouched otherwise. */
  lemma ParseRegisters(line: string, g: Registry, parseScore: ScoreParser)
    ensures ParseDetection(line, g, parseScore).reg
         == if Accepts(line, parseScore) then Register(g, Fields(line)[0]) else g
  {
  }

  /** The label is the first whitespace token of the stripped line, the
      score text the second, and the coordinate text holds all the others. */
  lemma FieldsAreTokens(line: string)
    requires |Split(Strip(line, IsSpace))| >= 3
    ensures var parts := Fields(line);
      var tokens := Split(Strip(line, IsSpace));
      && |parts| == 3
      && parts[0] == tokens[0] && parts[1] == tokens[1]
      && Split(parts[2]) == tokens[2..]
  {
    SplitMaxAgreesWithSplit(Strip(line, IsSpace), 2);
    var parts := Fields(line);
    var tokens := Split(Strip(line, IsSpace));
    assert parts[..2] == tokens[..2];
    assert parts[0] == parts[..2][0] && parts[1] == parts[..2][1];
  }

  /** A line with fewer than three whitespace tokens after stripping is
      rejected and leaves the registry unchanged. */
  lemma TooFewTokensRejected(line: string, g: Registry, parseScore: ScoreParser)
    requires |Split(Strip(line, IsSpace))| < 3
    ensures ParseDetection(line, g, parseScore) == Parsed(None, g)
  {
    SplitMaxAgreesWithSplit(Strip(line, IsSpace), 2);
  }

  /** The coordinate field of a detection line: `[x1,y1,...,x4,y4]`. */
  function CoordText(coords: seq<int>): string {
    "[" + Join(',', FormatAll(coords)) + "]"
  }

  /** The text of a detection line: label, score text and coordinate field,
      as in `car 0.9 [10,10,10,50,50,50,50,10]`. */
  function FormatLine(name: string, scoreText: string, coords: seq<int>): string {
    name + " " + scoreText + " " + CoordText(coords)
  }

  /** No character of a formatted integer is a comma or whitespace. */
  lemma FormatIntIsWord(n: int)
    ensures IsWord(FormatInt(n))
    ensures ',' !in FormatInt(n)
    ensures !IsBracket(FormatInt(n)[0]) && !IsBracket(FormatInt(n)[|FormatInt(n)| - 1])
    ensures !IsSpace(FormatInt(n)[0]) && !IsSpace(FormatInt(n)[|FormatInt(n)| - 1])
  {
    var s := FormatInt(n);
    assert forall i :: 0 <= i < |s| ==> IsDigit(s[i]) || s[i] == '-' by {
      forall i | 0 <= i < |s| ensures IsDigit(s[i]) || s[i] == '-' {
        if i > 0 && !IsDigits(s) {
          assert s[i] == s[1..][i - 1];
        }
      }
    }
    if |s| > 1 && !IsDigits(s) {
      assert s[|s| - 1] == s[1..][|s| - 2];
    }
  }

  /** Stripping brackets from `[` + `j` + `]` gives `j` when `j` neither
      starts nor ends with a bracket. */
  lemma StripBrackets(j: string)
    requires j != [] && !IsBracket(j[0]) && !IsBracket(j[|j| - 1])
    ensures Strip("[" + j + "]", IsBracket) == j
  {
    var text := "[" + j + "]";
    assert text[1..] == j + "]";
    assert StripLeft(text, IsBracket) == j + "]";
    assert (j + "]")[..|j|] == j;
  }

  /** Comma-joined words, commas turned into spaces and split on
      whitespace, give the words back. */
  lemma SplitCommaJoined(words: seq<string>)
    requires |words| > 0
    requires forall i :: 0 <= i < |words| ==> IsWord(words[i]) && ',' !in words[i]
    ensures Split(Strip(Replace(Join(',', words), ',', ' '), IsSpace)) == words
  {
    ReplaceSeparator(words, ',', ' ');
    SpacedUntouched(words);
    SplitJoin(words);
  }

  /** Words joined by spaces neither start nor end with whitespace. */
  lemma SpacedUntouched(words: seq<string>)
    requires |words| > 0
    requires forall i :: 0 <= i < |words| ==> IsWord(words[i])
    ensures Strip(Join(' ', words), IsSpace) == Join(' ', words)
  {
    var spaced := Join(' ', words);
    JoinEnds(' ', words);
    assert !IsSpace(words[0][0]) && !IsSpace(words[|words| - 1][|words[|words| - 1]| - 1]);
    StripUntouched(spaced, IsSpace);
  }

  /** Every formatted coordinate is a word without commas. */
  lemma FormattedWords(coords: seq<int>)
    ensures forall i :: 0 <= i < |coords| ==> IsWord(FormatAll(coords)[i]) && ',' !in FormatAll(coords)[i]
  {
    forall i | 0 <= i < |coords|
      ensures IsWord(FormatAll(coords)[i]) && ',' !in FormatAll(coords)[i]
    {
      FormatIntIsWord(coords[i]);
    }
  }

  /** The coordinate field, its brackets stripped, is the comma-joined
      coordinates; it neither starts nor ends with whitespace. */
  lemma CoordTextUnbracketed(coords: seq<int>)
    requires |coords| > 0
    ensures Strip(CoordText(coords), IsBracket) == Join(',', FormatAll(coords))
    ensures var t := CoordText(coords); t != [] && !IsSpace(t[0]) && !IsSpace(t[|t| - 1])
  {
    CoordEnds(coords);
    StripBrackets(Join(',', FormatAll(coords)));
  }

  /** The comma-joined coordinates start and end with a character of a
      number, never a bracket. */
  lemma CoordEnds(coords: seq<int>)
    requires |coords| > 0
    ensures var j := Join(',', FormatAll(coords)); j != [] && !IsBracket(j[0]) && !IsBracket(j[|j| - 1])
  {
    var words := FormatAll(coords);
    FormattedWords(coords);
    JoinEnds(',', words);
    FormatIntIsWord(coords[0]);
    FormatIntIsWord(coords[|coords| - 1]);
  }

  /** The coordinate field of a formatted line yields exactly its
      coordinates; it neither starts nor ends with whitespace. */
  lemma CoordinatesOfFormatted(coords: seq<int>)
    ensures Coordinates(CoordText(coords)) == coords
    ensures var t := CoordText(coords); t != [] && !IsSpace(t[0]) && !IsSpace(t[|t| - 1])
  {
    if coords == [] {
      EmptyCoordText();
      return;
    }
    CoordTextUnbracketed(coords);
    FormattedWords(coords);
    SplitCommaJoined(FormatAll(coords));
    KeepIntsOfFormatted(coords);
  }

  /** The coordinate field of no coordinates is `[]`, which yields none. */
  lemma EmptyCoordText()
    ensures CoordText([]) == "[]"
    ensures Coordinates("[]") == []
  {
    assert FormatAll([]) == [];
    assert Strip("[]", IsBracket) == [];
    assert Replace([], ',', ' ') == [];
    assert Strip([], IsSpace) == [];
  }

  /** Stripping removes at most the newline `readlines` keeps from a line
      that neither starts nor ends with whitespace. */
  lemma StripLine(line: string, newline: bool)
    requires line != [] && !IsSpace(line[0]) && !IsSpace(line[|line| - 1])
    ensures Strip(line + (if newline then "\n" else ""), IsSpace) == line
  {
    StripUntouched(line, IsSpace);
    if newline {
      StripTrailingSpace(line, '\n');
    } else {
      assert line + "" == line;
    }
  }

  /** `split(maxsplit=2)` of `label score rest` gives the three parts. */
  lemma SplitThree(name: string, scoreText: string, third: string)
    requires IsWord(name) && IsWord(scoreText)
    requires third != [] && !IsSpace(third[0])
    ensures SplitMax(name + ([' '] + (scoreText + ([' '] + third))), 2) == [name, scoreText, third]
  {
    var s3 := [' '] + third;
    var s2 := scoreText + s3;
    var s1 := [' '] + s2;
    SplitMaxAfterWord(name, s1, 2);
    SplitMaxAfterSpace(s2, 1);
    SplitMaxAfterWord(scoreText, s3, 1);
    SplitMaxAfterSpace(third, 0);
    SplitMaxRemainder(third);
  }

  /** A line made of a label, a score text and a third field, with or
      without the newline `readlines` keeps, splits into exactly those three. */
  lemma FieldsOfLine(name: string, scoreText: string, third: string, newline: bool)
    requires IsWord(name) && IsWord(scoreText)
    requires third != [] && !IsSpace(third[0]) && !IsSpace(third[|third| - 1])
    ensures Fields(name + " " + scoreText + " " + third + (if newline then "\n" else ""))
         == [name, scoreText, third]
  {
    var line := name + " " + scoreText + " " + third;
    assert line == name + ([' '] + (scoreText + ([' '] + third)));
    StripLine(line, newline);
    SplitThree(name, scoreText, third);
  }

  /** Round trip: a line written from a label, a score text and eight
      integers parses back to the bounding box of those integers, with the
      score `float` gives the text and the label's registered id; when
      `float` rejects the score text the line is rejected and the registry
      is unchanged. */
  lemma ParseFormattedLine(name: string, scoreText: string, coords: seq<int>, newline: bool,
                           g: Registry, parseScore: ScoreParser)
    requires IsWord(name) && IsWord(scoreText) && |coords| == 8
    ensures var r := ParseDetection(FormatLine(name, scoreText, coords) + (if newline then "\n" else ""), g, parseScore);
      var b := BoundingBox(coords);
      && (parseScore(scoreText).None? ==> r == Parsed(None, g))
      && (parseScore(scoreText).Some? ==>
            r == Parsed(Some(Detection(b.xMin, b.yMin, b.xMax, b.yMax, parseScore(scoreText).value,
                                       Register(g, name).ids[name])),
                        Register(g, name)))
  {
    CoordinatesOfFormatted(coords);
    FieldsOfLine(name, scoreText, CoordText(coords), newline);
  }

  /** `ParseFormattedLine` for an accepted score, with the box and score
      named by the caller. */
  lemma ParseAcceptedLine(line: string, name: string, scoreText: string, coords: seq<int>,
                          newline: bool, g: Registry, parseScore: ScoreParser, b: Box, score: real)
    requires IsWord(name) && IsWord(scoreText) && |coords| == 8
    requires line == FormatLine(name, scoreText, coords) + (if newline then "\n" else "")
    requires BoundingBox(coords) == b && parseScore(scoreText) == Some(score)
    ensures ParseDetection(line, g, parseScore)
         == Parsed(Some(Detection(b.xMin, b.yMin, b.xMax, b.yMax, score, Register(g, name).ids[name])),
                   Register(g, name))
  {
    ParseFormattedLine(name, scoreText, coords, newline, g, parseScore);
  }

  /** `ParseFormattedLine` for a rejected score. */
  lemma ParseRejectedLine(line: string, name: string, scoreText: string, coords: seq<int>,
                          g: Registry, parseScore: ScoreParser)
    requires IsWord(name) && IsWord(scoreText) && |coords| == 8
    requires line == FormatLine(name, scoreText, coords)
    requires parseScore(scoreText) == None
    ensures ParseDetection(line, g, parseScore) == Parsed(None, g)
  {
    assert line == FormatLine(name, scoreText, coords) + "";
    ParseFormattedLine(name, scoreText, coords, false, g, parseScore);
  }

  /** `str` of the example coordinates. */
  lemma ExampleWords()
    ensures FormatAll([10, 10, 10, 50, 50, 50, 50, 10]) == ["10", "10", "10", "50", "50", "50", "50", "10"]
  {
    assert FormatInt(10) == "10" && FormatInt(50) == "50";
  }

  /** Two words joined, and a word in front of a joined list. */
  lemma JoinFront(sep: char, w: string, rest: seq<string>)
    requires rest != []
    ensures Join(sep, [w] + rest) == w + [sep] + Join(sep, rest)
  {
    assert ([w] + rest)[1..] == rest;
  }

  /** Eight words in the pattern of the example's coordinates, joined. */
  lemma JoinEight(sep: char, a: string, b: string)
    ensures Join(sep, [a, a, a, b, b, b, b, a])
         == a + [sep] + (a + [sep] + (a + [sep] + (b + [sep] + (b + [sep] + (b + [sep] + (b + [sep] + a))))))
  {
    JoinFront(sep, b, [a]);
    assert [b] + [a] == [b, a];
    JoinFront(sep, b, [b, a]);
    assert [b] + [b, a] == [b, b, a];
    JoinFront(sep, b, [b, b, a]);
    assert [b] + [b, b, a] == [b, b, b, a];
    JoinFront(sep, b, [b, b, b, a]);
    assert [b] + [b, b, b, a] == [b, b, b, b, a];
    JoinFront(sep, a, [b, b, b, b, a]);
    assert [a] + [b, b, b, b, a] == [a, b, b, b, b, a];
    JoinFront(sep, a, [a, b, b, b, b, a]);
    assert [a] + [a, b, b, b, b, a] == [a, a, b, b, b, b, a];
    JoinFront(sep, a, [a, a, b, b, b, b, a]);
    assert [a] + [a, a, b, b, b, b, a] == [a, a, a, b, b, b, b, a];
  }

  /** The example's coordinates joined by commas. */
  lemma ExampleJoin(words: seq<string>, a: string, b: string)
    requires a == "10" && b == "50" && words == [a, a, a, b, b, b, b, a]
    ensures Join(',', words) == "10,10,10,50,50,50,50,10"
  {
    JoinEight(',', a, b);
  }

  /** Bracketing the example's comma-joined words, on the literal text alone.
      Kept apart so that the literal is evaluated in a small context, not inside the parse. */
  lemma ExampleBracketed(j: string)
    requires j == "10,10,10,50,50,50,50,10"
    ensures "[" + j + "]" == "[10,10,10,50,50,50,50,10]"
  {
  }

  /** The coordinate field of the example line. */
  lemma ExampleCoordText(c: seq<int>)
    requires c == [10, 10, 10, 50, 50, 50, 50, 10]
    ensures CoordText(c) == "[10,10,10,50,50,50,50,10]"
  {
    ExampleWords();
    ExampleJoin(FormatAll(c), "10", "50");
    ExampleBracketed(Join(',', FormatAll(c)));
  }

  /** The example line, on the literal text alone.
      Kept apart so that the literal is evaluated in a small context, not inside the parse. */
  lemma CarLineText(ct: string)
    requires ct == "[10,10,10,50,50,50,50,10]"
    ensures "car" + " " + "0.9" + " " + ct == "car 0.9 [10,10,10,50,50,50,50,10]"
  {
  }

  /** The example line with an unparsable score, on the literal text alone.
      Kept apart so that the literal is evaluated in a small context, not inside the parse. */
  lemma BadScoreLineText(ct: string)
    requires ct == "[10,10,10,50,50,50,50,10]"
    ensures "car" + " " + "abc" + " " + ct == "car abc [10,10,10,50,50,50,50,10]"
  {
  }

  /** The label and score texts of the examples are single tokens. */
  lemma ExampleFieldsAreWords()
    ensures IsWord("car") && IsWord("0.9") && IsWord("abc")
  {
    assert !IsSpace('c') && !IsSpace('a') && !IsSpace('r') && !IsSpace('0') && !IsSpace('.') && !IsSpace('9');
    assert !IsSpace('b');
  }

  /** The box of the example polygon is (10,10)-(50,50). */
  lemma ExampleBox(c: seq<int>)
    requires c == [10, 10, 10, 50, 50, 50, 50, 10]
    ensures BoundingBox(c) == Box(10, 10, 50, 50)
  {
    var b := BoundingBox(c);
    assert Xs(c) == [10, 10, 50, 50] && Ys(c) == [10, 50, 50, 10];
    assert 10 in Xs(c) && 50 in Xs(c) && 10 in Ys(c) && 50 in Ys(c);
    assert forall x :: x in Xs(c) ==> x == 10 || x == 50;
    assert forall y :: y in Ys(c) ==> y == 10 || y == 50;
  }

  /** The well-formed line of the end-to-end example parses, with or
      without its newline, on a fresh registry, to the box (10,10)-(50,50)
      with class id 0. */
  lemma CarLineParses(line: string, newline: bool, parseScore: ScoreParser)
    requires line == "car 0.9 [10,10,10,50,50,50,50,10]" + (if newline then "\n" else "")
    requires parseScore("0.9") == Some(0.9)
    ensures ParseDetection(line, Empty, parseScore)
         == Parsed(Some(Detection(10, 10, 50, 50, 0.9, 0)), Registry(map["car" := 0], 1))
  {
    var coords := [10, 10, 10, 50, 50, 50, 50, 10];
    ExampleCoordText(coords);
    ExampleBox(coords);
    CarLineText(CoordText(coords));
    ExampleFieldsAreWords();
    ParseAcceptedLine(line, "car", "0.9", coords, newline, Empty, parseScore, Box(10, 10, 50, 50), 0.9);
    RegisterFirst("car");
  }

  /** A line whose score text `float` rejects, as in `car abc [10,...]`, is
      dropped without touching the registry. */
  lemma BadScoreLineRejected(line: string, g: Registry, parseScore: ScoreParser)
    requires line == "car abc [10,10,10,50,50,50,50,10]"
    requires parseScore("abc") == None
    ensures ParseDetection(line, g, parseScore) == Parsed(None, g)
  {
    var coords := [10, 10, 10, 50, 50, 50, 50, 10];
    ExampleCoordText(coords);
    BadScoreLineText(CoordText(coords));
    ExampleFieldsAreWords();
    ParseRejectedLine(line, "car", "abc", coords, g, parseScore);
  }
}

=== FILE: pipeline.dfy ===
/** The `__main__` block of boxmot/main.py as a fold over the sorted frame
    list. The image reader, the tracker and the colour picker are parameters;
    what the program does to the outside world (opening the video writer,
    feeding the tracker, writing frames, releasing the writer) is recorded as
    a trace of events. The label registry and the tracker's state are
    threaded through the frames in order. */
module Pipeline {
  import opened Results
  import opened Registry
  import opened Parser
  import opened Loader
  import opened Render
  import opened Order

  /** Line 90: the directory the frames are read from. */
  const ImagesDir: string := "/datasets/eris/camera_front"

  /** Lines 84-87: the output video and its parameters. */
  const OutputPath: string := "/data/output/output.avi"
  const FourCC: string := "XVID"
  const Fps: int := 10
  const Width: int := 1920
  const Height: int := 1080

  /** What the program does to the writer and the tracker. A written frame
      is the image as read, with `marks` drawn on it, resized to the video
      size. */
  datatype Event<Img> =
    | OpenWriter(path: string, fourcc: string, fps: int, width: int, height: int)
    | TrackerUpdate(frame: string, dets: seq<Option<Detection>>)
    | WriteFrame(frame: string, image: Img, marks: seq<Annotation>)
    | ReleaseWriter

  /** The world the loop runs in: `cv2.imread` by path (`None` for a file it
      cannot read), the detection files, `float` on score texts,
      `tracker.update` on the tracker's state, and `get_color`. */
  datatype Env<!Img, !TS> = Env(
    readImage: string -> Option<Img>,
    files: Files,
    parseScore: ScoreParser,
    update: (TS, seq<Option<Detection>>, Img) -> (TS, seq<Track>),
    color: int -> Color)

  /** The registry, the tracker's state and the events so far. */
  datatype LoopState<Img, TS> = LoopState(reg: Registry, tracker: TS, trace: seq<Event<Img>>)

  /** `str(image_path)` for a frame of the images directory. */
  function ImagePath(name: string): (p: string)
    ensures ImagesDir + "/" <= p && p[|ImagesDir| + 1..] == name
  {
    ImagesDir + "/" + name
  }

  /** Line 103: the detections of frame `name`, and the registry after loading them. */
  function Load<Img, TS>(env: Env<Img, TS>, reg: Registry, name: string): (r: Loaded)
    ensures var path := DetectionPath(FrameStem(name));
      && (path !in env.files ==> r == Loaded([], reg))
      && (path in env.files ==> |r.dets| == |ReadLines(env.files[path])|)
  {
    GetDetectionsForFrame(FrameStem(name), env.files, reg, env.parseScore)
  }

  /** Lines 106-135, once the image `im` of frame `name` is read and its
      detections `loaded` are in hand. The frame is always written last and
      the loader's registry kept. An empty list writes the image bare and
      leaves the tracker alone. A non-empty one is handed to the tracker
      first, whose new state is kept, and the frame is written with every
      track it returned drawn on it, or bare when it returned none. */
  function Advance<Img, TS>(env: Env<Img, TS>, st: LoopState<Img, TS>, name: string, im: Img, loaded: Loaded)
    : (r: LoopState<Img, TS>)
    ensures r.reg == loaded.reg
    ensures st.trace < r.trace
    ensures var last := r.trace[|r.trace| - 1]; last.WriteFrame? && last.frame == name && last.image == im
    ensures loaded.dets == [] ==>
      r.tracker == st.tracker && |r.trace| == |st.trace| + 1 && r.trace[|st.trace|].marks == []
    ensures loaded.dets != [] ==>
      && |r.trace| == |st.trace| + 2
      && r.trace[|st.trace|] == TrackerUpdate(name, loaded.dets)
      && r.tracker == env.update(st.tracker, loaded.dets, im).0
    ensures loaded.dets != [] ==>
      var u := env.update(st.tracker, loaded.dets, im);
      r.trace[|st.trace| + 1] == WriteFrame(name, im, if |u.1| > 0 then Annotate(u.1, env.color) else [])
  {
    if loaded.dets == [] then
      LoopState(loaded.reg, st.tracker, st.trace + [WriteFrame(name, im, [])])
    else
      var u := env.update(st.tracker, loaded.dets, im);
      var marks := if |u.1| > 0 then Annotate(u.1, env.color) else [];
      LoopState(loaded.reg, u.0, st.trace + [TrackerUpdate(name, loaded.dets), WriteFrame(name, im, marks)])
  }

  /** Lines 95-135: one iteration for the frame `name`. An unreadable frame
      changes nothing; a readable one ends the trace with its write and
      takes the registry its detection file leaves. */
  function Step<Img, TS>(env: Env<Img, TS>, st: LoopState<Img, TS>, name: string): (r: LoopState<Img, TS>)
    ensures st.trace <= r.trace
    ensures env.readImage(ImagePath(name)).None? ==> r == st
    ensures env.readImage(ImagePath(name)).Some? ==>
      && |st.trace| < |r.trace| <= |st.trace| + 2
      && r.trace[|r.trace| - 1].WriteFrame? && r.trace[|r.trace| - 1].frame == name
      && r.reg == Load(env, st.reg, name).reg
  {
    match env.readImage(ImagePath(name))
    case None => st
    case Some(im) => Advance(env, st, name, im, Load(env, st.reg, name))
  }

  /** Line 93: the loop over `frames`, in order. It only appends to the
      trace, at most two events per frame. */
  function RunFrames<Img, TS>(env: Env<Img, TS>, st: LoopState<Img, TS>, frames: seq<string>)
    : (r: LoopState<Img, TS>)
    ensures st.trace <= r.trace && |r.trace| <= |st.trace| + 2 * |frames|
    decreases |frames|
  {
    if frames == [] then st
    else Step(env, RunFrames(env, st, frames[..|frames| - 1]), frames[|frames| - 1])
  }

  /** Three frames are three steps, in order. */
  lemma RunThree<Img, TS>(env: Env<Img, TS>, st: LoopState<Img, TS>, a: string, b: string, c: string)
    ensures RunFrames(env, st, [a, b, c]) == Step(env, Step(env, Step(env, st, a), b), c)
  {
    assert [a, b, c][..2] == [a, b] && [a, b][..1] == [a] && [a][..0] == [];
    assert RunFrames(env, st, [a]) == Step(env, st, a);
    assert RunFrames(env, st, [a, b]) == Step(env, Step(env, st, a), b);
  }

  /** Lines 84-138 on the directory `listing`, with the tracker in state
      `tracker` and the registry empty at process start. */
  function Main<Img, TS>(env: Env<Img, TS>, listing: seq<string>, tracker: TS): (r: LoopState<Img, TS>)
    ensures 2 <= |r.trace| <= 2 + 2 * |Frames(listing)|
    ensures r.trace[0] == OpenWriter(OutputPath, FourCC, Fps, Width, Height)
    ensures r.trace[|r.trace| - 1] == ReleaseWriter
  {
    var start := LoopState(Empty, tracker, [OpenWriter(OutputPath, FourCC, Fps, Width, Height)]);
    var done := RunFrames(env, start, Frames(listing));
    LoopState(done.reg, done.tracker, done.trace + [ReleaseWriter])
  }

  // The observable summary of a run.

  /** The frames the writer receives, in order. */
  function Written<Img>(trace: seq<Event<Img>>): seq<string> {
    if trace == [] then []
    else
      var e := trace[|trace| - 1];
      Written(trace[..|trace| - 1]) + (if e.WriteFrame? then [e.frame] else [])
  }

  /** The frames the tracker is called for, in order. */
  function Tracked<Img>(trace: seq<Event<Img>>): seq<string> {
    if trace == [] then []
    else
      var e := trace[|trace| - 1];
      Tracked(trace[..|trace| - 1]) + (if e.TrackerUpdate? then [e.frame] else [])
  }

  /** How many times the writer is released. */
  function Releases<Img>(trace: seq<Event<Img>>): nat {
    if trace == [] then 0
    else Releases(trace[..|trace| - 1]) + (if trace[|trace| - 1].ReleaseWriter? then 1 else 0)
  }

  /** How many times the writer is opened. */
  function Opens<Img>(trace: seq<Event<Img>>): nat {
    if trace == [] then 0
    else Opens(trace[..|trace| - 1]) + (if trace[|trace| - 1].OpenWriter? then 1 else 0)
  }

  /** `frames` without those `imread` cannot read. */
  function Readable<Img, TS>(env: Env<Img, TS>, frames: seq<string>): (r: seq<string>)
    ensures |r| <= |frames|
  {
    if frames == [] then []
    else
      var name := frames[|frames| - 1];
      Readable(env, frames[..|frames| - 1]) + (if env.readImage(ImagePath(name)).Some? then [name] else [])
  }

  /** The frame's detection file exists and is not empty, so the loader
      returns a non-empty list. */
  predicate HasDetections(files: Files, name: string) {
    DetectionPath(FrameStem(name)) in files && files[DetectionPath(FrameStem(name))] != []
  }

  /** The frames that are readable and have detections: the ones the
      tracker sees. */
  function TrackedFrames<Img, TS>(env: Env<Img, TS>, frames: seq<string>): (r: seq<string>)
    ensures |r| <= |frames|
  {
    if frames == [] then []
    else
      var name := frames[|frames| - 1];
      TrackedFrames(env, frames[..|frames| - 1])
        + (if env.readImage(ImagePath(name)).Some? && HasDetections(env.files, name) then [name] else [])
  }

  /** A well-paired trace: the tracker's events and the annotated writes
      come in pairs, an update for a frame immediately followed by the write
      of that frame, and a write with something drawn on it always comes
      right after the update of its frame. */
  ghost predicate Paired<Img>(trace: seq<Event<Img>>) {
    && (forall i :: 0 <= i < |trace| && trace[i].TrackerUpdate? ==>
          i + 1 < |trace| && trace[i + 1].WriteFrame? && trace[i + 1].frame == trace[i].frame)
    && (forall i :: 0 <= i < |trace| && trace[i].WriteFrame? && trace[i].marks != [] ==>
          0 < i && trace[i - 1].TrackerUpdate? && trace[i - 1].frame == trace[i].frame)
  }

  lemma WrittenAppend<Img>(a: seq<Event<Img>>, b: seq<Event<Img>>)
    ensures Written(a + b) == Written(a) + Written(b)
    ensures Tracked(a + b) == Tracked(a) + Tracked(b)
    ensures Releases(a + b) == Releases(a) + Releases(b)
    ensures Opens(a + b) == Opens(a) + Opens(b)
    decreases |b|
  {
    if b != [] {
      var n := |b| - 1;
      assert (a + b)[..|a + b| - 1] == a + b[..n];
      WrittenAppend(a, b[..n]);
    } else {
      assert a + b == a;
    }
  }

  /** The summaries of a single event. */
  lemma OneEvent<Img>(e: Event<Img>)
    ensures Written([e]) == (if e.WriteFrame? then [e.frame] else [])
    ensures Tracked([e]) == (if e.TrackerUpdate? then [e.frame] else [])
    ensures Releases([e]) == (if e.ReleaseWriter? then 1 else 0)
    ensures Opens([e]) == (if e.OpenWriter? then 1 else 0)
  {
    assert [e][..0] == [];
  }

  /** The event summaries of `t` followed by one write. */
  lemma AppendWrite<Img>(t: seq<Event<Img>>, e: Event<Img>)
    requires e.WriteFrame?
    ensures Written(t + [e]) == Written(t) + [e.frame] && Tracked(t + [e]) == Tracked(t)
    ensures Releases(t + [e]) == Releases(t) && Opens(t + [e]) == Opens(t)
  {
    WrittenAppend(t, [e]);
    OneEvent(e);
  }

  /** The event summaries of `t` followed by a tracker update. */
  lemma AppendUpdate<Img>(t: seq<Event<Img>>, e: Event<Img>)
    requires e.TrackerUpdate?
    ensures Written(t + [e]) == Written(t) && Tracked(t + [e]) == Tracked(t) + [e.frame]
    ensures Releases(t + [e]) == Releases(t) && Opens(t + [e]) == Opens(t)
  {
    WrittenAppend(t, [e]);
    OneEvent(e);
  }

  /** What a readable frame adds to the trace: a plain write when it has
      no detections, and an update followed by a write otherwise. */
  lemma AdvanceEvents<Img, TS>(env: Env<Img, TS>, st: LoopState<Img, TS>, name: string, im: Img, loaded: Loaded)
    ensures var st' := Advance(env, st, name, im, loaded);
      && st.trace <= st'.trace
      && Written(st'.trace) == Written(st.trace) + [name]
      && Tracked(st'.trace) == Tracked(st.trace) + (if loaded.dets != [] then [name] else [])
      && Releases(st'.trace) == Releases(st.trace)
      && Opens(st'.trace) == Opens(st.trace)
  {
    var st' := Advance(env, st, name, im, loaded);
    if loaded.dets == [] {
      AppendWrite(st.trace, WriteFrame(name, im, []));
    } else {
      var e0 := TrackerUpdate(name, loaded.dets);
      var e1 := st'.trace[|st'.trace| - 1];
      assert st'.trace == st.trace + [e0] + [e1];
      AppendUpdate(st.trace, e0);
      AppendWrite(st.trace + [e0], e1);
    }
  }

  /** What one step adds to the trace: nothing for an unreadable frame, a
      plain write for a frame without detections, and an update followed by
      a write otherwise. */
  lemma StepEvents<Img, TS>(env: Env<Img, TS>, st: LoopState<Img, TS>, name: string)
    ensures var st' := Step(env, st, name);
      var readable := env.readImage(ImagePath(name)).Some?;
      && st.trace <= st'.trace
      && Written(st'.trace) == Written(st.trace) + (if readable then [name] else [])
      && Tracked(st'.trace) == Tracked(st.trace) + (if readable && HasDetections(env.files, name) then [name] else [])
      && Releases(st'.trace) == Releases(st.trace)
      && Opens(st'.trace) == Opens(st.trace)
  {
    match env.readImage(ImagePath(name))
    case None =>
    case Some(im) =>
      var loaded := Load(env, st.reg, name);
      EmptyDetections(FrameStem(name), env.files, st.reg, env.parseScore);
      AdvanceEvents(env, st, name, im, loaded);
  }

  /** A readable frame without a detection file is written as it is, with
      the registry and the tracker left alone. */
  lemma StepWithoutFile<Img, TS>(env: Env<Img, TS>, st: LoopState<Img, TS>, name: string, im: Img)
    requires env.readImage(ImagePath(name)) == Some(im)
    requires DetectionPath(FrameStem(name)) !in env.files
    ensures Step(env, st, name) == LoopState(st.reg, st.tracker, st.trace + [WriteFrame(name, im, [])])
  {
  }

  /** A readable frame whose detection file is one line feeds the tracker
      the one entry that line parses to, registered on the running registry. */
  lemma StepWithOneLine<Img, TS>(env: Env<Img, TS>, st: LoopState<Img, TS>, name: string, im: Img, text: string)
    requires env.readImage(ImagePath(name)) == Some(im)
    requires DetectionPath(FrameStem(name)) in env.files && env.files[DetectionPath(FrameStem(name))] == text
    requires text != [] && '\n' !in text[..|text| - 1]
    ensures var p := ParseDetection(text, st.reg, env.parseScore);
      var u := env.update(st.tracker, [p.det], im);
      Step(env, st, name)
        == LoopState(p.reg, u.0, st.trace + [TrackerUpdate(name, [p.det]), WriteFrame(name, im, if |u.1| > 0 then Annotate(u.1, env.color) else [])])
  {
    ReadLinesSingle(text);
    ParseLinesSingle(text, st.reg, env.parseScore);
  }

  /** The loop writes each readable frame once, in visiting order. */
  lemma {:induction false} RunWritten<Img, TS>(env: Env<Img, TS>, st: LoopState<Img, TS>, frames: seq<string>)
    ensures Written(RunFrames(env, st, frames).trace) == Written(st.trace) + Readable(env, frames)
    decreases |frames|
  {
    if frames != [] {
      var p := frames[..|frames| - 1];
      RunWritten(env, st, p);
      StepEvents(env, RunFrames(env, st, p), frames[|frames| - 1]);
    }
  }

  /** The loop calls the tracker exactly for the readable frames with
      detections, in visiting order. */
  lemma {:induction false} RunTracked<Img, TS>(env: Env<Img, TS>, st: LoopState<Img, TS>, frames: seq<string>)
    ensures Tracked(RunFrames(env, st, frames).trace) == Tracked(st.trace) + TrackedFrames(env, frames)
    decreases |frames|
  {
    if frames != [] {
      RunTracked(env, st, frames[..|frames| - 1]);
      TrackedLast(env, st, frames);
    }
  }

  /** The last frame of the loop extends what the tracker saw by that frame
      exactly when it is readable and has detections. */
  lemma TrackedLast<Img, TS>(env: Env<Img, TS>, st: LoopState<Img, TS>, frames: seq<string>)
    requires frames != []
    requires Tracked(RunFrames(env, st, frames[..|frames| - 1]).trace)
          == Tracked(st.trace) + TrackedFrames(env, frames[..|frames| - 1])
    ensures Tracked(RunFrames(env, st, frames).trace) == Tracked(st.trace) + TrackedFrames(env, frames)
  {
    var p := frames[..|frames| - 1];
    var name := frames[|frames| - 1];
    var prev := RunFrames(env, st, p);
    var added := if env.readImage(ImagePath(name)).Some? && HasDetections(env.files, name) then [name] else [];
    assert RunFrames(env, st, frames) == Step(env, prev, name);
    StepEvents(env, prev, name);
    assert TrackedFrames(env, frames) == TrackedFrames(env, p) + added;
    Associate(Tracked(st.trace), TrackedFrames(env, p), added);
  }

  /** Concatenation regroups; stated over plain sequences so that the
      solver does not unfold the summaries to check it. */
  lemma Associate<T>(a: seq<T>, b: seq<T>, c: seq<T>)
    ensures (a + b) + c == a + (b + c)
  {
  }

  /** The loop only adds events, and never opens or releases the writer. */
  lemma {:induction false} RunKeepsWriter<Img, TS>(env: Env<Img, TS>, st: LoopState<Img, TS>, frames: seq<string>)
    ensures var st' := RunFrames(env, st, frames);
      && st.trace <= st'.trace
      && Releases(st'.trace) == Releases(st.trace)
      && Opens(st'.trace) == Opens(st.trace)
    decreases |frames|
  {
    if frames != [] {
      var p := frames[..|frames| - 1];
      RunKeepsWriter(env, st, p);
      StepEvents(env, RunFrames(env, st, p), frames[|frames| - 1]);
    }
  }

  /** The last event of a trace the loop leaves: the opening or a write. */
  predicate EndsSettled<Img>(trace: seq<Event<Img>>) {
    trace == [] || trace[|trace| - 1].OpenWriter? || trace[|trace| - 1].WriteFrame?
  }

  /** A readable frame keeps the trace well paired. */
  lemma AdvancePaired<Img, TS>(env: Env<Img, TS>, st: LoopState<Img, TS>, name: string, im: Img, loaded: Loaded)
    requires Paired(st.trace) && EndsSettled(st.trace)
    ensures Paired(Advance(env, st, name, im, loaded).trace) && EndsSettled(Advance(env, st, name, im, loaded).trace)
  {
    var t := Advance(env, st, name, im, loaded).trace;
    var n := |st.trace|;
    if loaded.dets == [] {
      assert t == st.trace + [t[n]];
      PairedAppendWrite(st.trace, t[n]);
    } else {
      assert t == st.trace + [t[n], t[n + 1]];
      PairedAppendPair(st.trace, t[n], t[n + 1]);
    }
  }

  /** A bare write after a settled trace keeps it well paired. */
  lemma PairedAppendWrite<Img>(t: seq<Event<Img>>, w: Event<Img>)
    requires Paired(t) && EndsSettled(t)
    requires w.WriteFrame? && w.marks == []
    ensures Paired(t + [w]) && EndsSettled(t + [w])
  {
  }

  /** An update followed by the write of its frame, after a settled trace,
      keeps it well paired. */
  lemma PairedAppendPair<Img>(t: seq<Event<Img>>, u: Event<Img>, w: Event<Img>)
    requires Paired(t) && EndsSettled(t)
    requires u.TrackerUpdate? && w.WriteFrame? && w.frame == u.frame
    ensures Paired(t + [u, w]) && EndsSettled(t + [u, w])
  {
  }

  /** One step keeps the trace well paired. */
  lemma StepPaired<Img, TS>(env: Env<Img, TS>, st: LoopState<Img, TS>, name: string)
    requires Paired(st.trace) && EndsSettled(st.trace)
    ensures Paired(Step(env, st, name).trace) && EndsSettled(Step(env, st, name).trace)
  {
    match env.readImage(ImagePath(name))
    case None =>
    case Some(im) =>
      AdvancePaired(env, st, name, im, Load(env, st.reg, name));
  }

  /** The loop keeps the trace well paired, and it always ends on the
      opening of the writer or on a write. */
  lemma {:induction false} RunPaired<Img, TS>(env: Env<Img, TS>, st: LoopState<Img, TS>, frames: seq<string>)
    requires Paired(st.trace) && EndsSettled(st.trace)
    ensures Paired(RunFrames(env, st, frames).trace) && EndsSettled(RunFrames(env, st, frames).trace)
    decreases |frames|
  {
    if frames != [] {
      RunPaired(env, st, frames[..|frames| - 1]);
      StepPaired(env, RunFrames(env, st, frames[..|frames| - 1]), frames[|frames| - 1]);
    }
  }

  /** The registry stays valid across the whole loop. */
  lemma {:induction false} RunPreservesValid<Img, TS>(env: Env<Img, TS>, st: LoopState<Img, TS>, frames: seq<string>)
    requires Valid(st.reg)
    ensures Valid(RunFrames(env, st, frames).reg)
    decreases |frames|
  {
    if frames != [] {
      var prev := RunFrames(env, st, frames[..|frames| - 1]);
      RunPreservesValid(env, st, frames[..|frames| - 1]);
      var name := frames[|frames| - 1];
      var path := DetectionPath(FrameStem(name));
      if path in env.files {
        ParseLinesPreservesValid(ReadLines(env.files[path]), prev.reg, env.parseScore);
      }
    }
  }

  /** The labels the loader registers for frame `name`: those of the
      well-formed lines of its detection file, in line order, and none when
      it has no file. */
  ghost function FrameLabels(files: Files, parseScore: ScoreParser, name: string): seq<string> {
    var path := DetectionPath(FrameStem(name));
    if path in files then AcceptedLabels(ReadLines(files[path]), parseScore) else []
  }

  /** The labels the loop registers over `frames`: those of each readable
      frame's file, frame after frame. An unreadable frame's file is never
      opened. */
  ghost function RunLabels<Img, TS>(env: Env<Img, TS>, frames: seq<string>): seq<string>
    decreases |frames|
  {
    if frames == [] then []
    else
      var name := frames[|frames| - 1];
      RunLabels(env, frames[..|frames| - 1])
        + (if env.readImage(ImagePath(name)).Some? then FrameLabels(env.files, env.parseScore, name) else [])
  }

  /** Line 103: loading a frame registers the labels of its file. */
  lemma LoadRegisters<Img, TS>(env: Env<Img, TS>, reg: Registry, name: string)
    ensures Load(env, reg, name).reg == RegisterAll(reg, FrameLabels(env.files, env.parseScore, name))
  {
    var path := DetectionPath(FrameStem(name));
    if path in env.files {
      ParseLinesRegisters(ReadLines(env.files[path]), reg, env.parseScore);
    }
  }

  /** One frame of the loop registers the labels of its file when the frame
      is readable, and nothing otherwise. */
  lemma StepRegisters<Img, TS>(env: Env<Img, TS>, st: LoopState<Img, TS>, name: string)
    ensures Step(env, st, name).reg == RegisterAll(st.reg,
      if env.readImage(ImagePath(name)).Some? then FrameLabels(env.files, env.parseScore, name) else [])
  {
    if env.readImage(ImagePath(name)).Some? {
      LoadRegisters(env, st.reg, name);
    }
  }

  /** The registry is process-wide: the loop registers the labels of every
      readable frame's file, in frame order, on top of the registry it
      started with. */
  lemma {:induction false} RunRegisters<Img, TS>(env: Env<Img, TS>, st: LoopState<Img, TS>, frames: seq<string>)
    ensures RunFrames(env, st, frames).reg == RegisterAll(st.reg, RunLabels(env, frames))
    decreases |frames|
  {
    if frames != [] {
      var p := frames[..|frames| - 1];
      var name := frames[|frames| - 1];
      var prev := RunFrames(env, st, p);
      var added := if env.readImage(ImagePath(name)).Some? then FrameLabels(env.files, env.parseScore, name) else [];
      assert RunFrames(env, st, frames) == Step(env, prev, name);
      assert RunLabels(env, frames) == RunLabels(env, p) + added;
      RunRegisters(env, st, p);
      StepRegisters(env, prev, name);
      RegisterAllAppend(st.reg, RunLabels(env, p), added);
    }
  }

  /** The loop never forgets or renumbers a label. */
  lemma RunExtends<Img, TS>(env: Env<Img, TS>, st: LoopState<Img, TS>, frames: seq<string>)
    ensures Extends(st.reg, RunFrames(env, st, frames).reg)
  {
    RunRegisters(env, st, frames);
  }

  /** A filtered sorted list is still sorted. */
  lemma {:induction false} ReadableSorted<Img, TS>(env: Env<Img, TS>, frames: seq<string>)
    requires Sorted(frames)
    ensures Sorted(Readable(env, frames))
    ensures forall x :: x in Readable(env, frames) ==> x in frames
    decreases |frames|
  {
    if frames != [] {
      var p := frames[..|frames| - 1];
      assert Sorted(p);
      ReadableSorted(env, p);
      var r := Readable(env, frames);
      var rp := Readable(env, p);
      forall i, j | 0 <= i < j < |r| ensures LessEq(r[i], r[j]) {
        if j >= |rp| {
          assert r[i] == rp[i] && rp[i] in rp;
          var k :| 0 <= k < |p| && p[k] == r[i];
          assert LessEq(frames[k], frames[|frames| - 1]);
        }
      }
    }
  }

  /** The trace before the loop: just the opening of the writer. */
  lemma Opening<Img>(t: seq<Event<Img>>)
    requires t == [OpenWriter(OutputPath, FourCC, Fps, Width, Height)]
    ensures Written(t) == [] && Tracked(t) == [] && Opens(t) == 1 && Releases(t) == 0
    ensures Paired(t) && EndsSettled(t)
  {
    assert t[..0] == [];
  }

  /** Releasing the writer after the loop adds one release and nothing else. */
  lemma Closing<Img>(d: seq<Event<Img>>)
    ensures var t := d + [ReleaseWriter];
      && Written(t) == Written(d) && Tracked(t) == Tracked(d)
      && Opens(t) == Opens(d) && Releases(t) == Releases(d) + 1
  {
    var t := d + [ReleaseWriter];
    assert t[..|t| - 1] == d;
  }

  /** The release comes after a write or the opening, so it breaks no pair. */
  lemma ClosingPaired<Img>(d: seq<Event<Img>>)
    requires Paired(d) && EndsSettled(d)
    ensures Paired(d + [ReleaseWriter])
  {
  }

  /** Lines 84-87 and 138: the writer is opened first and released last,
      once each, and the events in between are the loop's. */
  lemma MainWriter<Img, TS>(env: Env<Img, TS>, listing: seq<string>, tracker: TS)
    ensures var t := Main(env, listing, tracker).trace;
      && |t| >= 2
      && t[0] == OpenWriter(OutputPath, FourCC, Fps, Width, Height)
      && t[|t| - 1] == ReleaseWriter
      && Opens(t) == 1 && Releases(t) == 1
  {
    var start := LoopState(Empty, tracker, [OpenWriter(OutputPath, FourCC, Fps, Width, Height)]);
    var done := RunFrames(env, start, Frames(listing));
    Opening(start.trace);
    RunKeepsWriter(env, start, Frames(listing));
    CloseCounts(done.trace);
    assert Main(env, listing, tracker).trace == done.trace + [ReleaseWriter];
  }

  /** A trace with the writer opened once and never released, once the
      release is appended, has one of each. */
  lemma CloseCounts<Img>(d: seq<Event<Img>>)
    requires Opens(d) == 1 && Releases(d) == 0
    ensures Opens(d + [ReleaseWriter]) == 1 && Releases(d + [ReleaseWriter]) == 1
  {
    Closing(d);
  }

  /** Lines 91-135: the frames written are the readable `*.png` frames in
      sorted order, one write each, and the tracker is called exactly for
      the readable frames with a non-empty detection file. */
  lemma MainFrames<Img, TS>(env: Env<Img, TS>, listing: seq<string>, tracker: TS)
    ensures var t := Main(env, listing, tracker).trace;
      && Written(t) == Readable(env, Frames(listing))
      && Sorted(Written(t))
      && Tracked(t) == TrackedFrames(env, Frames(listing))
  {
    var start := LoopState(Empty, tracker, [OpenWriter(OutputPath, FourCC, Fps, Width, Height)]);
    var done := RunFrames(env, start, Frames(listing));
    Opening(start.trace);
    RunWritten(env, start, Frames(listing));
    RunTracked(env, start, Frames(listing));
    Closing(done.trace);
    ReadableSorted(env, Frames(listing));
  }

  /** Lines 112-135: in the whole trace, every tracker update is followed at
      once by the write of its frame, and every annotated write comes right
      after the update of its frame. */
  lemma MainPaired<Img, TS>(env: Env<Img, TS>, listing: seq<string>, tracker: TS)
    ensures Paired(Main(env, listing, tracker).trace)
  {
    var start := LoopState(Empty, tracker, [OpenWriter(OutputPath, FourCC, Fps, Width, Height)]);
    var done := RunFrames(env, start, Frames(listing));
    Opening(start.trace);
    RunPaired(env, start, Frames(listing));
    ClosingPaired(done.trace);
  }

  /** Lines 12-13 and 50-52: the registry the program ends with is valid. */
  lemma MainValid<Img, TS>(env: Env<Img, TS>, listing: seq<string>, tracker: TS)
    ensures Valid(Main(env, listing, tracker).reg)
  {
    var start := LoopState(Empty, tracker, [OpenWriter(OutputPath, FourCC, Fps, Width, Height)]);
    EmptyValid();
    RunPreservesValid(env, start, Frames(listing));
  }

  /** Lines 12-13 and 50-54 over the whole run: the program's registry holds
      exactly the labels of the readable frames' well-formed lines, each
      with the number of distinct labels seen before its first occurrence
      in sorted frame order and file order, and the counter is their
      number. */
  lemma MainRegisters<Img, TS>(env: Env<Img, TS>, listing: seq<string>, tracker: TS)
    ensures Main(env, listing, tracker).reg == RegisterAll(Empty, RunLabels(env, Frames(listing)))
    ensures var labels := RunLabels(env, Frames(listing));
      var g := Main(env, listing, tracker).reg;
      && g.ids.Keys == Labels(labels)
      && g.next == |Labels(labels)|
      && forall l :: l in labels ==> g.ids[l] == |Labels(labels[..FirstIndex(labels, l)])|
  {
    var start := LoopState(Empty, tracker, [OpenWriter(OutputPath, FourCC, Fps, Width, Height)]);
    RunRegisters(env, start, Frames(listing));
    FirstSeenOrder(RunLabels(env, Frames(listing)));
  }

  /** One more frame of the loop is one more step. */
  lemma RunFramesSnoc<Img, TS>(env: Env<Img, TS>, st: LoopState<Img, TS>, frames: seq<string>, i: nat)
    requires i < |frames|
    ensures RunFrames(env, st, frames[..i + 1]) == Step(env, RunFrames(env, st, frames[..i]), frames[i])
  {
    assert frames[..i + 1][..i] == frames[..i];
  }

  /** The frame loop run with a `for` loop over the sorted frames, as the
      program does. */
  method Run<Img, TS>(env: Env<Img, TS>, listing: seq<string>, tracker: TS) returns (st: LoopState<Img, TS>)
    ensures st == Main(env, listing, tracker)
    ensures Written(st.trace) == Readable(env, Frames(listing))
    ensures Releases(st.trace) == 1 && st.trace[|st.trace| - 1] == ReleaseWriter
  {
    var frames := Frames(listing);
    var start := LoopState(Empty, tracker, [OpenWriter(OutputPath, FourCC, Fps, Width, Height)]);
    st := start;
    var i := 0;
    while i < |frames|
      invariant 0 <= i <= |frames|
      invariant st == RunFrames(env, start, frames[..i])
    {
      RunFramesSnoc(env, start, frames, i);
      st := Step(env, st, frames[i]);
      i := i + 1;
    }
    assert frames[..i] == frames;
    st := LoopState(st.reg, st.tracker, st.trace + [ReleaseWriter]);
    MainWriter(env, listing, tracker);
    MainFrames(env, listing, tracker);
  }
}

=== FILE: registry.dfy ===
/** The process-wide label registry of the detection parser (`label_map`
    together with `label_id_counter`): an interning table that hands out
    class ids in first-seen order and never forgets or renumbers a label.
    The Python code keeps it in module globals; here it is a value threaded
    through every call that can change it. */
module Registry {

  /** `ids` is `label_map`; `next` is `label_id_counter[0]`. */
  datatype Registry = Registry(ids: map<string, nat>, next: nat)

  /** The registry at process start: no labels, counter 0. */
  const Empty := Registry(map[], 0)

  /** The ids in use are exactly `0 .. next - 1`, each held by one label. */
  ghost predicate Valid(g: Registry) {
    && (forall l, l' :: l in g.ids && l' in g.ids && l != l' ==> g.ids[l] != g.ids[l'])
    && (forall l :: l in g.ids ==> g.ids[l] < g.next)
    && (forall i :: 0 <= i < g.next ==> i in g.ids.Values)
  }

  /** Every label of `g` is in `g'` with the same id. */
  ghost predicate Extends(g: Registry, g': Registry) {
    forall l :: l in g.ids ==> l in g'.ids && g'.ids[l] == g.ids[l]
  }

  /** Lines 50-52: an unseen label receives the current counter value and
      the counter moves on by one; a known label leaves the registry alone. */
  function Register(g: Registry, name: string): (g': Registry)
    ensures name in g'.ids
    ensures Extends(g, g')
    ensures g'.ids.Keys == g.ids.Keys + {name}
    ensures name in g.ids ==> g' == g
    ensures name !in g.ids ==> g'.ids[name] == g.next && g'.next == g.next + 1
  {
    if name in g.ids then g else Registry(g.ids[name := g.next], g.next + 1)
  }

  /** Line 54, `label_map.get(label, 0)`: the id of `name`, or 0 if absent. */
  function ClassId(g: Registry, name: string): (id: nat)
    ensures id in g.ids.Values || (id == 0 && name !in g.ids)
    ensures Valid(g) && g.next > 0 ==> id < g.next
  {
    if name in g.ids then g.ids[name] else 0
  }

  /** The process starts with a valid registry. */
  lemma EmptyValid()
    ensures Valid(Empty)
  {
    assert Empty.ids.Values == {};
  }

  /** Registering keeps ids injective and dense. */
  lemma RegisterPreservesValid(g: Registry, name: string)
    requires Valid(g)
    ensures Valid(Register(g, name))
  {
    if name !in g.ids {
      var g' := Register(g, name);
      forall i | 0 <= i < g'.next ensures i in g'.ids.Values {
        if i == g.next {
          assert g'.ids[name] == i;
        } else {
          assert i in g.ids.Values;
          var l :| l in g.ids && g.ids[l] == i;
          assert g'.ids[l] == i;
        }
      }
    }
  }

  /** The id the parser reads back right after registering is the one the
      registry holds: the fallback 0 of line 54 is never taken. */
  lemma ClassIdAfterRegister(g: Registry, name: string)
    ensures ClassId(Register(g, name), name) == Register(g, name).ids[name]
    ensures name in g.ids ==> ClassId(Register(g, name), name) == g.ids[name]
    ensures name !in g.ids ==> ClassId(Register(g, name), name) == g.next
  {
  }

  /** The first label registered in a process gets id 0. */
  lemma RegisterFirst(name: string)
    ensures Register(Empty, name) == Registry(map[name := 0], 1)
  {
  }

  /** Registers `labels` one after another, as successive parser calls do. */
  function RegisterAll(g: Registry, labels: seq<string>): (g': Registry)
    ensures Extends(g, g')
    decreases |labels|
  {
    if labels == [] then g
    else Register(RegisterAll(g, labels[..|labels| - 1]), labels[|labels| - 1])
  }

  /** Registering `a` and then `b` is registering `a + b`. */
  lemma {:induction false} RegisterAllAppend(g: Registry, a: seq<string>, b: seq<string>)
    ensures RegisterAll(RegisterAll(g, a), b) == RegisterAll(g, a + b)
    decreases |b|
  {
    if b == [] {
      assert a + b == a;
    } else {
      var ab := a + b;
      assert ab[..|ab| - 1] == a + b[..|b| - 1] && ab[|ab| - 1] == b[|b| - 1];
      RegisterAllAppend(g, a, b[..|b| - 1]);
    }
  }

  /** The distinct labels of a sequence. */
  function Labels(labels: seq<string>): set<string> {
    set i | 0 <= i < |labels| :: labels[i]
  }

  /** The position of the first occurrence of `l` in `labels`. */
  function FirstIndex(labels: seq<string>, l: string): (i: nat)
    requires l in labels
    ensures i < |labels| && labels[i] == l && l !in labels[..i]
  {
    if labels[0] == l then 0 else 1 + FirstIndex(labels[1..], l)
  }

  /** The first occurrence of `l` in `p + [x]` is its first occurrence in `p`
      when `l` occurs in `p`. */
  lemma {:induction false} FirstIndexExtend(p: seq<string>, x: string, l: string)
    requires l in p
    ensures FirstIndex(p + [x], l) == FirstIndex(p, l)
  {
    if p[0] != l {
      assert (p + [x])[1..] == p[1..] + [x];
      FirstIndexExtend(p[1..], x, l);
    }
  }

  /** The labels of `p + [x]` are those of `p` and `x`. */
  lemma LabelsSnoc(p: seq<string>, x: string)
    ensures Labels(p + [x]) == Labels(p) + {x}
    ensures x in Labels(p) <==> x in p
  {
    var labels := p + [x];
    forall l | l in Labels(labels) ensures l in Labels(p) + {x} {
      var i :| 0 <= i < |labels| && labels[i] == l;
      if i < |p| { assert p[i] == l; }
    }
    forall l | l in Labels(p) ensures l in Labels(labels) {
      var i :| 0 <= i < |p| && p[i] == l;
      assert labels[i] == l;
    }
    assert labels[|p|] == x;
    if x in Labels(p) {
      var i :| 0 <= i < |p| && p[i] == x;
    }
    if x in p {
      var i :| 0 <= i < |p| && p[i] == x;
      assert x in Labels(p);
    }
  }

  /** A label already seen keeps its id when `x` is registered, and its
      first occurrence does not move. */
  lemma FirstSeenOld(p: seq<string>, x: string, g: Registry, l: string)
    requires g.ids.Keys == Labels(p)
    requires l in p && g.ids[l] == |Labels(p[..FirstIndex(p, l)])|
    ensures Register(g, x).ids[l] == |Labels((p + [x])[..FirstIndex(p + [x], l)])|
  {
    FirstIndexExtend(p, x, l);
    var i := FirstIndex(p, l);
    assert (p + [x])[..i] == p[..i];
  }

  /** A label seen for the first time gets the number of labels seen before. */
  lemma FirstSeenNew(p: seq<string>, x: string, g: Registry)
    requires g.ids.Keys == Labels(p) && g.next == |Labels(p)|
    requires x !in p
    ensures Register(g, x).ids[x] == |Labels((p + [x])[..FirstIndex(p + [x], x)])|
  {
    LabelsSnoc(p, x);
    assert (p + [x])[..|p|] == p;
  }

  /** One registration step of `FirstSeenOrder`: the id of every label of
      `p + [x]` is the number of distinct labels before its first occurrence. */
  lemma FirstSeenStep(p: seq<string>, x: string, g: Registry)
    requires g.ids.Keys == Labels(p) && g.next == |Labels(p)|
    requires forall l :: l in p ==> g.ids[l] == |Labels(p[..FirstIndex(p, l)])|
    ensures forall l :: l in p + [x] ==>
      Register(g, x).ids[l] == |Labels((p + [x])[..FirstIndex(p + [x], l)])|
  {
    forall l | l in p + [x]
      ensures Register(g, x).ids[l] == |Labels((p + [x])[..FirstIndex(p + [x], l)])|
    {
      if l in p {
        FirstSeenOld(p, x, g, l);
      } else {
        FirstSeenNew(p, x, g);
      }
    }
  }

  /** Starting from the empty registry, the labels registered are exactly
      the labels seen, the counter is their number, and each label's id is
      the number of distinct labels seen before its first occurrence: the
      first distinct label gets 0, the second 1, and so on. */
  lemma {:induction false} FirstSeenOrder(labels: seq<string>)
    ensures RegisterAll(Empty, labels).ids.Keys == Labels(labels)
    ensures RegisterAll(Empty, labels).next == |Labels(labels)|
    ensures forall l :: l in labels ==>
      RegisterAll(Empty, labels).ids[l] == |Labels(labels[..FirstIndex(labels, l)])|
    decreases |labels|
  {
    if labels == [] {
      assert Labels(labels) == {};
    } else {
      var p := labels[..|labels| - 1];
      var x := labels[|labels| - 1];
      assert labels == p + [x];
      FirstSeenOrder(p);
      LabelsSnoc(p, x);
      FirstSeenStep(p, x, RegisterAll(Empty, p));
    }
  }
}

=== FILE: render.dfy ===
/** The drawing step of the frame loop (boxmot/main.py): every track the
    tracker returns is cast to integers with `astype('int')`, and becomes a
    rectangle and a text label in the colour of its track id. The pixels
    are not modelled; an annotation records what is drawn and where. */
module Render {
  import opened Text
  import opened Ints
  import opened Parser

  /** One row of the tracker's output: `x, y, x, y, id, conf, cls, ind`. */
  datatype Track = Track(x1: real, y1: real, x2: real, y2: real, trackId: real, conf: real, cls: real, index: real)

  /** A colour channel drawn by `np.random.randint(0, 255)`, whose upper
      bound is exclusive. */
  type Channel = c: int | 0 <= c < 255

  /** The colour tuple passed to OpenCV, in its blue-green-red order. */
  datatype Color = Color(b: Channel, g: Channel, r: Channel)

  datatype Point = Point(x: int, y: int)

  /** What lines 126 and 129-130 draw for one track: a rectangle between
      two corners, and a label at `origin`, both in `color`. */
  datatype Annotation = Annotation(corner1: Point, corner2: Point, text: string, origin: Point, color: Color)

  /** How far above the box the label sits. */
  const LabelRise: int := 10

  /** numpy's `astype('int')` on a float: the fraction is dropped, rounding
      toward zero. */
  function Trunc(x: real): (n: int)
    ensures 0.0 <= x ==> n as real <= x < n as real + 1.0
    ensures x < 0.0 ==> n as real - 1.0 < x <= n as real
  {
    if 0.0 <= x then x.Floor else -((-x).Floor)
  }

  /** `n` is `x` with its fraction dropped: the integer nearest `x` on the
      side of zero. */
  ghost predicate TowardZero(n: int, x: real) {
    if 0.0 <= x then n as real <= x < n as real + 1.0 else n as real - 1.0 < x <= n as real
  }

  /** Truncation is symmetric about zero, which is where it parts from
      rounding down. */
  lemma TruncNegate(x: real)
    ensures Trunc(-x) == -Trunc(x)
  {
  }

  /** Whole numbers survive the cast. */
  lemma TruncWhole(n: int)
    ensures Trunc(n as real) == n
  {
  }

  /** Python's `f'{n:.2f}'` for an integer `n`. Integers above 2^53, which
      lose digits on the way to a float, are not modelled. */
  function FixedTwo(n: int): (s: string)
    ensures |s| >= 4 && s[|s| - 3..] == ".00"
    ensures IsIntToken(s[..|s| - 3]) && ParseInt(s[..|s| - 3]) == n
  {
    var s := FormatInt(n) + ".00";
    assert s[..|s| - 3] == FormatInt(n);
    ParseFormatInt(n);
    s
  }

  /** Line 129, `f'ID: {track_id}, Conf: {conf:.2f}, Class: {cls}'`, with
      the values already cast to integers. */
  function LabelText(trackId: int, conf: int, cls: int): (s: string)
    ensures "ID: " + FormatInt(trackId) + ", Conf: " <= s
    ensures |s| >= |FormatInt(cls)| && s[|s| - |FormatInt(cls)|..] == FormatInt(cls)
  {
    "ID: " + FormatInt(trackId) + ", Conf: " + FixedTwo(conf) + ", Class: " + FormatInt(cls)
  }

  /** Lines 122-130 for one track; `color` stands for `get_color`. The
      corners are the track's first four values cast toward zero, the label
      shows the cast id, confidence and class, sits `LabelRise` above the
      first corner, and box and label share the colour of the cast id. */
  function AnnotateTrack(t: Track, color: int -> Color): (a: Annotation)
    ensures TowardZero(a.corner1.x, t.x1) && TowardZero(a.corner1.y, t.y1)
    ensures TowardZero(a.corner2.x, t.x2) && TowardZero(a.corner2.y, t.y2)
    ensures a.text == LabelText(Trunc(t.trackId), Trunc(t.conf), Trunc(t.cls))
    ensures a.origin == Point(a.corner1.x, a.corner1.y - LabelRise)
    ensures a.color == color(Trunc(t.trackId))
  {
    var x1, y1, x2, y2 := Trunc(t.x1), Trunc(t.y1), Trunc(t.x2), Trunc(t.y2);
    var id, conf, cls := Trunc(t.trackId), Trunc(t.conf), Trunc(t.cls);
    Annotation(Point(x1, y1), Point(x2, y2), LabelText(id, conf, cls), Point(x1, y1 - LabelRise), color(id))
  }

  /** Lines 121-130: one annotation per track, in the tracker's order. */
  function Annotate(tracks: seq<Track>, color: int -> Color): (marks: seq<Annotation>)
    ensures |marks| == |tracks|
    ensures forall i :: 0 <= i < |tracks| ==> marks[i] == AnnotateTrack(tracks[i], color)
  {
    if tracks == [] then [] else [AnnotateTrack(tracks[0], color)] + Annotate(tracks[1..], color)
  }

  /** The label as space-separated words. */
  function LabelWords(trackId: int, conf: int, cls: int): seq<string> {
    ["ID:", FormatInt(trackId) + ",", "Conf:", FixedTwo(conf) + ",", "Class:", FormatInt(cls)]
  }

  /** Six words joined by single spaces. */
  lemma JoinSix(a: string, b: string, c: string, d: string, e: string, f: string)
    ensures Join(' ', [a, b, c, d, e, f]) == a + " " + (b + " " + (c + " " + (d + " " + (e + " " + f))))
  {
    assert Join(' ', [e, f]) == e + " " + f by { assert [e, f][1..] == [f]; }
    assert Join(' ', [d, e, f]) == d + " " + (e + " " + f) by { assert [d, e, f][1..] == [e, f]; }
    assert Join(' ', [c, d, e, f]) == c + " " + (d + " " + (e + " " + f)) by { assert [c, d, e, f][1..] == [d, e, f]; }
    assert Join(' ', [b, c, d, e, f]) == b + " " + (c + " " + (d + " " + (e + " " + f))) by {
      assert [b, c, d, e, f][1..] == [c, d, e, f];
    }
    assert Join(' ', [a, b, c, d, e, f]) == a + " " + (b + " " + (c + " " + (d + " " + (e + " " + f)))) by {
      assert [a, b, c, d, e, f][1..] == [b, c, d, e, f];
    }
  }

  /** The tail of the label from its class field on, regrouped word by word. */
  lemma ClassTailRegroup(b: string, c: string)
    ensures b + ", Class: " + c == (b + ",") + " " + ("Class:" + " " + c)
  {
    assert ", Class: " + c == "," + " " + ("Class:" + " " + c);
  }

  /** The label after its `ID: ` prefix, regrouped word by word. */
  lemma TailRegroup(a: string, b: string, c: string)
    ensures a + ", Conf: " + b + ", Class: " + c
         == (a + ",") + " " + ("Conf:" + " " + ((b + ",") + " " + ("Class:" + " " + c)))
  {
    ClassTailRegroup(b, c);
    var t := (b + ",") + " " + ("Class:" + " " + c);
    assert ", Conf: " + b + ", Class: " + c == "," + " " + ("Conf:" + " " + t);
  }

  /** The whole label, regrouped word by word. */
  lemma LabelRegroup(a: string, b: string, c: string)
    ensures "ID: " + a + ", Conf: " + b + ", Class: " + c
         == "ID:" + " " + ((a + ",") + " " + ("Conf:" + " " + ((b + ",") + " " + ("Class:" + " " + c))))
  {
    TailRegroup(a, b, c);
    assert "ID: " + a + ", Conf: " + b + ", Class: " + c == "ID:" + " " + (a + ", Conf: " + b + ", Class: " + c);
  }

  /** The label is its words joined by single spaces. */
  lemma LabelTextIsJoin(trackId: int, conf: int, cls: int)
    ensures LabelText(trackId, conf, cls) == Join(' ', LabelWords(trackId, conf, cls))
  {
    var a, b, c := FormatInt(trackId), FixedTwo(conf), FormatInt(cls);
    JoinSix("ID:", a + ",", "Conf:", b + ",", "Class:", c);
    LabelRegroup(a, b, c);
  }

  /** A word followed by a non-space character is still a word. */
  lemma WordSuffixed(w: string, tail: string)
    requires IsWord(w) && NoSpace(tail)
    ensures IsWord(w + tail)
  {
    assert forall i :: 0 <= i < |w + tail| ==> (w + tail)[i] == if i < |w| then w[i] else tail[i - |w|];
  }

  lemma FixedTwoComma(n: int)
    ensures FixedTwo(n) + "," == FormatInt(n) + ".00,"
  {
  }

  /** The fixed words of the label hold no whitespace. */
  lemma LabelKeywords()
    ensures IsWord("ID:") && IsWord("Conf:") && IsWord("Class:")
    ensures NoSpace(",") && NoSpace(".00,")
  {
  }

  /** A number followed by a comma is one word. */
  lemma CommaWord(n: int)
    ensures IsWord(FormatInt(n) + ",")
  {
    FormatIntIsWord(n);
    LabelKeywords();
    WordSuffixed(FormatInt(n), ",");
  }

  /** A confidence followed by a comma is one word. */
  lemma ConfWord(n: int)
    ensures IsWord(FixedTwo(n) + ",")
  {
    FormatIntIsWord(n);
    LabelKeywords();
    WordSuffixed(FormatInt(n), ".00,");
    FixedTwoComma(n);
  }

  /** Six words in a row. */
  lemma SixWords(a: string, b: string, c: string, d: string, e: string, f: string)
    requires IsWord(a) && IsWord(b) && IsWord(c) && IsWord(d) && IsWord(e) && IsWord(f)
    ensures forall i :: 0 <= i < 6 ==> IsWord([a, b, c, d, e, f][i])
  {
  }

  /** Each of the six words of the label is non-empty and free of whitespace. */
  lemma LabelWordsAreWords(trackId: int, conf: int, cls: int)
    ensures var w := LabelWords(trackId, conf, cls);
      forall i :: 0 <= i < |w| ==> IsWord(w[i])
  {
    CommaWord(trackId);
    ConfWord(conf);
    FormatIntIsWord(cls);
    LabelKeywords();
    SixWords("ID:", FormatInt(trackId) + ",", "Conf:", FixedTwo(conf) + ",", "Class:", FormatInt(cls));
  }

  /** Splitting the label on whitespace gives back its six words. */
  lemma SplitLabel(trackId: int, conf: int, cls: int)
    ensures Split(LabelText(trackId, conf, cls)) == LabelWords(trackId, conf, cls)
  {
    LabelWordsAreWords(trackId, conf, cls);
    LabelTextIsJoin(trackId, conf, cls);
    SplitJoin(LabelWords(trackId, conf, cls));
  }

  /** The label reads back: of the six whitespace words, `int()` of the
      second without its comma, of the fourth without `.00,` and of the
      sixth recover the id, confidence and class the label was drawn with. */
  lemma LabelReadsBack(trackId: int, conf: int, cls: int)
    ensures var w := Split(LabelText(trackId, conf, cls));
      && |w| == 6 && |w[1]| >= 1 && |w[3]| >= 4
      && IsIntToken(w[1][..|w[1]| - 1]) && ParseInt(w[1][..|w[1]| - 1]) == trackId
      && IsIntToken(w[3][..|w[3]| - 4]) && ParseInt(w[3][..|w[3]| - 4]) == conf
      && IsIntToken(w[5]) && ParseInt(w[5]) == cls
  {
    SplitLabel(trackId, conf, cls);
    var w := LabelWords(trackId, conf, cls);
    assert w[1][..|w[1]| - 1] == FormatInt(trackId);
    assert w[3][..|w[3]| - 4] == FormatInt(conf);
    ParseFormatInt(trackId);
    ParseFormatInt(conf);
    ParseFormatInt(cls);
  }

  /** Line 122 casts the confidence to an integer before line 129 formats
      it, so every confidence in [0, 1) is displayed as `0.00`. */
  lemma ConfidenceShownAsZero(t: Track, color: int -> Color)
    requires 0.0 <= t.conf < 1.0
    ensures AnnotateTrack(t, color).text
         == "ID: " + FormatInt(Trunc(t.trackId)) + ", Conf: 0.00, Class: " + FormatInt(Trunc(t.cls))
  {
    assert Trunc(t.conf) == 0;
    FixedTwoZero();
    ZeroLabel(FormatInt(Trunc(t.trackId)), FormatInt(Trunc(t.cls)));
  }

  lemma FixedTwoZero()
    ensures FixedTwo(0) == "0.00"
  {
    assert FormatInt(0) == "0";
  }

  /** The label text around a confidence of `0.00`. Kept apart so that the
      literal is evaluated in a small context, not inside the annotation. */
  lemma ZeroLabel(a: string, c: string)
    ensures "ID: " + a + ", Conf: " + "0.00" + ", Class: " + c == "ID: " + a + ", Conf: 0.00, Class: " + c
  {
    assert ", Conf: " + "0.00" + ", Class: " == ", Conf: 0.00, Class: ";
  }
}

=== FILE: results.dfy ===
/** Optional values and error-carrying results, used where the Python code
    returns `None` or raises an exception that its caller catches. */
module Results {

  /** A value that may be absent: a value or Python's `None`. */
  datatype Option<+T> = None | Some(value: T)

  /** Either a value or the reason it could not be produced. */
  datatype Result<+R, +E> = Success(value: R) | Failure(error: E)
}

=== FILE: scenario.dfy ===
/** A whole run of boxmot/main.py on three frames: `f1.png` has no
    detection file, `f2.png` has the one line
    `car 0.9 [10,10,10,50,50,50,50,10]`, and `f3.png` cannot be read. */
module Scenario {
  import opened Results
  import opened Registry
  import opened Parser
  import opened Loader
  import opened Render
  import opened Order
  import opened Pipeline

  /** The three frame names are in Python's string order and match `*.png`. */
  lemma NamesSorted()
    ensures Sorted(["f1.png", "f2.png", "f3.png"])
    ensures IsPng("f1.png") && IsPng("f2.png") && IsPng("f3.png")
  {
    assert Less("f1.png", "f2.png") && Less("f1.png", "f3.png") && Less("f2.png", "f3.png");
  }

  /** The detection files of the first two frames are different files. */
  lemma PathsDiffer()
    ensures DetectionsDir + "/" + "f1" + ".txt" != DetectionsDir + "/f2.txt"
  {
    assert (DetectionsDir + "/" + "f1" + ".txt")[|DetectionsDir| + 2] == '1';
  }

  /** The detection file of `f2.png` is the one the files hold. Kept apart
      so that the literal is evaluated in a small context, not inside the load. */
  lemma PathOfSecond()
    ensures DetectionsDir + "/" + "f2" + ".txt" == DetectionsDir + "/f2.txt"
  {
  }

  /** The detection line of `f2.png` holds no newline before its last
      character. Kept apart so that the literal is evaluated in a small
      context, not inside the load. */
  lemma CarLineSingle(line: string)
    requires line == "car 0.9 [10,10,10,50,50,50,50,10]\n"
    ensures line != [] && '\n' !in line[..|line| - 1]
  {
  }

  /** The frame list of a listing holding the three names once each, in any
      order. */
  lemma ScenarioFrames(listing: seq<string>, n1: string, n2: string, n3: string)
    requires n1 == "f1.png" && n2 == "f2.png" && n3 == "f3.png"
    requires multiset(listing) == multiset{n1, n2, n3}
    ensures Frames(listing) == [n1, n2, n3]
  {
    NamesSorted();
    forall i | 0 <= i < |listing| ensures IsPng(listing[i]) {
      assert listing[i] in multiset(listing);
    }
    FramesOfPngs(listing);
    assert multiset([n1, n2, n3]) == multiset{n1, n2, n3};
    SortedUnique(Frames(listing), [n1, n2, n3]);
  }

  /** `f1.png` has no detection file: it loads no detections and leaves
      the registry alone. */
  lemma FirstLoad<Img, TS>(env: Env<Img, TS>, reg: Registry, n1: string, line: string)
    requires n1 == "f1.png"
    requires env.files == map[DetectionsDir + "/f2.txt" := line]
    ensures Load(env, reg, n1) == Loaded([], reg)
  {
    FrameStemOf(n1, "f1");
    DetectionPathOfImage(n1);
    PathsDiffer();
  }

  /** `f2.png` has the car line: on a fresh registry it loads the car box
      with class id 0, and registers `car`. */
  lemma SecondLoad<Img, TS>(env: Env<Img, TS>, n2: string, line: string)
    requires n2 == "f2.png"
    requires line == "car 0.9 [10,10,10,50,50,50,50,10]\n"
    requires env.files == map[DetectionsDir + "/f2.txt" := line]
    requires env.parseScore("0.9") == Some(0.9)
    ensures Load(env, Empty, n2) == Loaded([Some(Detection(10, 10, 50, 50, 0.9, 0))], Registry(map["car" := 0], 1))
  {
    FrameStemOf(n2, "f2");
    DetectionPathOfImage(n2);
    PathOfSecond();
    CarLineSingle(line);
    ReadLinesSingle(line);
    ParseLinesSingle(line, Empty, env.parseScore);
    CarLineParses(line, true, env.parseScore);
  }

  /** Three frames, the first readable without detections, the second
      readable with one detection, the third unreadable: the first is
      written as it is, the second goes through the tracker and is written
      with the tracks drawn on it, the third leaves no trace. */
  lemma ScenarioLoop<Img, TS>(env: Env<Img, TS>, st: LoopState<Img, TS>, n1: string, n2: string, n3: string,
                              im1: Img, im2: Img, d: Detection, r: Registry)
    requires env.readImage(ImagePath(n1)) == Some(im1)
    requires env.readImage(ImagePath(n2)) == Some(im2)
    requires env.readImage(ImagePath(n3)) == None
    requires Load(env, st.reg, n1) == Loaded([], st.reg)
    requires Load(env, st.reg, n2) == Loaded([Some(d)], r)
    ensures var u := env.update(st.tracker, [Some(d)], im2);
      RunFrames(env, st, [n1, n2, n3])
        == LoopState(r, u.0, st.trace + [WriteFrame(n1, im1, []), TrackerUpdate(n2, [Some(d)]),
                                         WriteFrame(n2, im2, if |u.1| > 0 then Annotate(u.1, env.color) else [])])
  {
    RunThree(env, st, n1, n2, n3);
    var st1 := LoopState(st.reg, st.tracker, st.trace + [WriteFrame(n1, im1, [])]);
    StepReadable(env, st, n1, im1);
    assert Step(env, st, n1) == st1;
    StepReadable(env, st1, n2, im2);
    AdvanceOne(env, st1, n2, im2, d, r);
    var st2 := Step(env, st1, n2);
    StepUnreadable(env, st2, n3);
    var u := env.update(st.tracker, [Some(d)], im2);
    Regroup(st.trace, WriteFrame(n1, im1, []), TrackerUpdate(n2, [Some(d)]),
            WriteFrame(n2, im2, if |u.1| > 0 then Annotate(u.1, env.color) else []));
  }

  /** One event, then two more, is three events. Stated over plain values
      so that the solver does not rebuild the events to check it. */
  lemma Regroup<T>(t: seq<T>, a: T, b: T, c: T)
    ensures t + [a] + [b, c] == t + [a, b, c]
  {
  }

  /** A readable frame advances with what its detection file loads. */
  lemma StepReadable<Img, TS>(env: Env<Img, TS>, st: LoopState<Img, TS>, name: string, im: Img)
    requires env.readImage(ImagePath(name)) == Some(im)
    ensures Step(env, st, name) == Advance(env, st, name, im, Load(env, st.reg, name))
  {
  }

  /** An unreadable frame leaves the state alone. */
  lemma StepUnreadable<Img, TS>(env: Env<Img, TS>, st: LoopState<Img, TS>, name: string)
    requires env.readImage(ImagePath(name)) == None
    ensures Step(env, st, name) == st
  {
  }

  /** A frame with a one-entry detection list: one update, then the write. */
  lemma AdvanceOne<Img, TS>(env: Env<Img, TS>, st: LoopState<Img, TS>, name: string, im: Img, d: Detection, r: Registry)
    ensures var u := env.update(st.tracker, [Some(d)], im);
      Advance(env, st, name, im, Loaded([Some(d)], r))
        == LoopState(r, u.0, st.trace + [TrackerUpdate(name, [Some(d)]),
                                         WriteFrame(name, im, if |u.1| > 0 then Annotate(u.1, env.color) else [])])
  {
  }

  /** Lines 84-138 on the three frames, listed in any order: the writer is
      opened, `f1` is written unannotated, the tracker gets the car box and
      `f2` is written with the tracks it returns, `f3` is skipped, and the
      writer is released; the registry ends as `{car: 0}`. */
  lemma EndToEnd<Img, TS>(env: Env<Img, TS>, listing: seq<string>, tracker: TS,
                          n1: string, n2: string, n3: string, line: string, im1: Img, im2: Img)
    requires n1 == "f1.png" && n2 == "f2.png" && n3 == "f3.png"
    requires multiset(listing) == multiset{n1, n2, n3}
    requires line == "car 0.9 [10,10,10,50,50,50,50,10]\n"
    requires env.files == map[DetectionsDir + "/f2.txt" := line]
    requires env.parseScore("0.9") == Some(0.9)
    requires env.readImage(ImagePath(n1)) == Some(im1)
    requires env.readImage(ImagePath(n2)) == Some(im2)
    requires env.readImage(ImagePath(n3)) == None
    ensures var d := Detection(10, 10, 50, 50, 0.9, 0);
      var u := env.update(tracker, [Some(d)], im2);
      var m := Main(env, listing, tracker);
      && m.trace == [OpenWriter(OutputPath, FourCC, Fps, Width, Height),
                     WriteFrame(n1, im1, []),
                     TrackerUpdate(n2, [Some(d)]),
                     WriteFrame(n2, im2, if |u.1| > 0 then Annotate(u.1, env.color) else []),
                     ReleaseWriter]
      && m.reg == Registry(map["car" := 0], 1)
      && m.tracker == u.0
  {
    var d := Detection(10, 10, 50, 50, 0.9, 0);
    var start := LoopState(Empty, tracker, [OpenWriter(OutputPath, FourCC, Fps, Width, Height)]);
    ScenarioFrames(listing, n1, n2, n3);
    FirstLoad(env, Empty, n1, line);
    SecondLoad(env, n2, line);
    ScenarioLoop(env, start, n1, n2, n3, im1, im2, d, Registry(map["car" := 0], 1));
    var u := env.update(tracker, [Some(d)], im2);
    var events := [WriteFrame(n1, im1, []), TrackerUpdate(n2, [Some(d)]),
                   WriteFrame(n2, im2, if |u.1| > 0 then Annotate(u.1, env.color) else [])];
    MainUnfold(env, listing, tracker, [n1, n2, n3], LoopState(Registry(map["car" := 0], 1), u.0, start.trace + events));
    Bracketed(start.trace[0], events[0], events[1], events[2], ReleaseWriter);
  }

  /** `Main` once the loop's result is known. */
  lemma MainUnfold<Img, TS>(env: Env<Img, TS>, listing: seq<string>, tracker: TS, frames: seq<string>,
                            done: LoopState<Img, TS>)
    requires Frames(listing) == frames
    requires RunFrames(env, LoopState(Empty, tracker, [OpenWriter(OutputPath, FourCC, Fps, Width, Height)]), frames) == done
    ensures Main(env, listing, tracker) == LoopState(done.reg, done.tracker, done.trace + [ReleaseWriter])
  {
  }

  /** Opening, three events and the release, in one sequence. Stated over
      plain values so that the solver does not rebuild the events to check it. */
  lemma Bracketed<T>(a: T, b: T, c: T, d: T, e: T)
    ensures [a] + [b, c, d] + [e] == [a, b, c, d, e]
  {
  }
}

=== FILE: text.dfy ===
/** The parts of Python's `str` that the detection parser relies on:
    `strip` (with and without a character set), `split` (with and without
    `maxsplit`), `replace` of one character by another, and `join`. */
module Text {

  /** The characters for which Python's `str.isspace` holds. `str.strip()`
      and `str.split()` without arguments treat exactly these as whitespace. */
  predicate IsSpace(c: char) {
    var n := c as int;
    || 0x09 <= n <= 0x0D || 0x1C <= n <= 0x20 || n == 0x85 || n == 0xA0 || n == 0x1680
    || 0x2000 <= n <= 0x200A || n == 0x2028 || n == 0x2029 || n == 0x202F || n == 0x205F
    || n == 0x3000
  }

  /** No character of `s` is whitespace. */
  predicate NoSpace(s: string) {
    forall i :: 0 <= i < |s| ==> !IsSpace(s[i])
  }

  /** A non-empty run of non-whitespace characters: what `str.split()` yields. */
  predicate IsWord(w: string) {
    w != [] && NoSpace(w)
  }

  /** `s.lstrip(cs)`: the suffix left after the longest prefix of characters satisfying `cs`. */
  function StripLeft(s: string, cs: char -> bool): (r: string)
    ensures |r| <= |s|
    ensures r == [] || !cs(r[0])
    ensures forall i :: 0 <= i < |s| - |r| ==> cs(s[i])
  {
    if s != [] && cs(s[0]) then StripLeft(s[1..], cs) else s
  }

  /** `s.rstrip(cs)`: the prefix left after the longest suffix of characters satisfying `cs`. */
  function StripRight(s: string, cs: char -> bool): (r: string)
    ensures r <= s
    ensures r == [] || !cs(r[|r| - 1])
    ensures forall i :: |r| <= i < |s| ==> cs(s[i])
  {
    if s != [] && cs(s[|s| - 1]) then StripRight(s[..|s| - 1], cs) else s
  }

  /** `s.strip(cs)`; `s.strip()` is `Strip(s, IsSpace)`. */
  function Strip(s: string, cs: char -> bool): string {
    StripRight(StripLeft(s, cs), cs)
  }

  /** Stripping a string that neither starts nor ends with a character
      satisfying `cs` leaves it unchanged. */
  lemma StripUntouched(s: string, cs: char -> bool)
    requires s != [] && !cs(s[0]) && !cs(s[|s| - 1])
    ensures Strip(s, cs) == s
  {
  }

  /** The longest prefix of `s` that holds no whitespace. */
  function Word(s: string): (w: string)
    ensures w <= s
    ensures NoSpace(w)
    ensures |w| < |s| ==> IsSpace(s[|w|])
  {
    if s == [] || IsSpace(s[0]) then [] else [s[0]] + Word(s[1..])
  }

  /** `s.split()`: the maximal runs of non-whitespace characters, in order. */
  function Split(s: string): (r: seq<string>)
    ensures forall i :: 0 <= i < |r| ==> IsWord(r[i])
    decreases |s|
  {
    var t := StripLeft(s, IsSpace);
    if t == [] then []
    else
      var w := Word(t);
      assert w != [] by { assert !IsSpace(t[0]); }
      [w] + Split(t[|w|..])
  }

  /** `s.split(maxsplit=k)`: at most `k` words are split off; what remains,
      without its leading whitespace, is the last element. */
  function SplitMax(s: string, k: nat): (r: seq<string>)
    ensures |r| <= k + 1
    ensures forall i :: 0 <= i < |r| ==> r[i] != [] && !IsSpace(r[i][0])
    ensures forall i :: 0 <= i < |r| - 1 ==> IsWord(r[i])
    decreases |s|
  {
    var t := StripLeft(s, IsSpace);
    if t == [] then []
    else if k == 0 then [t]
    else
      var w := Word(t);
      assert w != [] by { assert !IsSpace(t[0]); }
      [w] + SplitMax(t[|w|..], k - 1)
  }

  /** Left-stripping twice is left-stripping once. */
  lemma StripLeftIdempotent(s: string, cs: char -> bool)
    ensures StripLeft(StripLeft(s, cs), cs) == StripLeft(s, cs)
  {
  }

  /** Leading whitespace does not change the words of a string. */
  lemma SplitIgnoresLeadingSpace(s: string)
    ensures Split(StripLeft(s, IsSpace)) == Split(s)
  {
    StripLeftIdempotent(s, IsSpace);
  }

  /** One step of `Split` and `SplitMax` on a string that has a word. */
  lemma SplitStep(s: string, k: nat)
    requires StripLeft(s, IsSpace) != []
    ensures var t := StripLeft(s, IsSpace);
      var w := Word(t);
      && w != []
      && Split(s) == [w] + Split(t[|w|..])
      && (k > 0 ==> SplitMax(s, k) == [w] + SplitMax(t[|w|..], k - 1))
  {
    assert !IsSpace(StripLeft(s, IsSpace)[0]);
  }

  /** Prepending the same word to a full split `a` and a limited split `b`
      keeps the agreement between them, now with `k` splits. */
  lemma ConsKeepsAgreement(w: string, a: seq<string>, b: seq<string>, full: seq<string>,
                           limited: seq<string>, k: nat, tail: seq<string>)
    requires k > 0 && full == [w] + a && limited == [w] + b
    requires |a| <= k - 1 ==> b == a
    requires |a| > k - 1 ==> |b| == k && b[..k - 1] == a[..k - 1] && tail == a[k - 1..]
    ensures |full| <= k ==> limited == full
    ensures |full| > k ==>
      && |limited| == k + 1
      && limited[..k] == full[..k]
      && limited[k] == b[k - 1]
      && tail == full[k..]
  {
    if |a| > k - 1 {
      assert limited[..k] == [w] + b[..k - 1];
      assert full[..k] == [w] + a[..k - 1];
      assert full[k..] == a[k - 1..];
    }
  }

  /** With no splits allowed, the single element left holds all the words. */
  lemma SplitMaxZero(s: string)
    requires StripLeft(s, IsSpace) != []
    ensures SplitMax(s, 0) == [StripLeft(s, IsSpace)]
    ensures |Split(s)| > 0
    ensures Split(SplitMax(s, 0)[0]) == Split(s)
  {
    SplitIgnoresLeadingSpace(s);
    SplitStep(s, 0);
  }

  /** `split(maxsplit=k)` agrees with `split()`: when there are at most `k`
      words both give the same list; otherwise the first `k` elements are the
      first `k` words and the last element holds exactly the remaining words. */
  lemma {:induction false} SplitMaxAgreesWithSplit(s: string, k: nat)
    ensures |Split(s)| <= k ==> SplitMax(s, k) == Split(s)
    ensures |Split(s)| > k ==>
      && |SplitMax(s, k)| == k + 1
      && SplitMax(s, k)[..k] == Split(s)[..k]
      && Split(SplitMax(s, k)[k]) == Split(s)[k..]
    decreases |s|, 1
  {
    if StripLeft(s, IsSpace) == [] {
    } else if k == 0 {
      SplitMaxZero(s);
    } else {
      SplitMaxAgreesStep(s, k);
    }
  }

  /** The inductive step of `SplitMaxAgreesWithSplit`: split off the first
      word and use the agreement on the rest. */
  lemma {:induction false} SplitMaxAgreesStep(s: string, k: nat)
    requires StripLeft(s, IsSpace) != [] && k > 0
    ensures |Split(s)| <= k ==> SplitMax(s, k) == Split(s)
    ensures |Split(s)| > k ==>
      && |SplitMax(s, k)| == k + 1
      && SplitMax(s, k)[..k] == Split(s)[..k]
      && Split(SplitMax(s, k)[k]) == Split(s)[k..]
    decreases |s|, 0
  {
    SplitStep(s, k);
    var t := StripLeft(s, IsSpace);
    var w := Word(t);
    var rest := t[|w|..];
    SplitMaxAgreesWithSplit(rest, k - 1);
    var b := SplitMax(rest, k - 1);
    var tail := if |b| == k then Split(b[k - 1]) else [];
    ConsKeepsAgreement(w, Split(rest), b, Split(s), SplitMax(s, k), k, tail);
  }

  /** `sep.join(words)` for a one-character separator. */
  function Join(sep: char, words: seq<string>): string
  {
    if |words| == 0 then []
    else if |words| == 1 then words[0]
    else words[0] + [sep] + Join(sep, words[1..])
  }

  /** The word at the front of `w + rest` is `w` when `w` holds no whitespace
      and `rest` is empty or starts with whitespace. */
  lemma {:induction false} WordOfPrefix(w: string, rest: string)
    requires NoSpace(w)
    requires rest == [] || IsSpace(rest[0])
    ensures Word(w + rest) == w
  {
    if w != [] {
      assert (w + rest)[1..] == w[1..] + rest;
      WordOfPrefix(w[1..], rest);
    }
  }

  /** A word followed by nothing or by whitespace is the first word. */
  lemma SplitAfterWord(w: string, rest: string)
    requires IsWord(w)
    requires rest == [] || IsSpace(rest[0])
    ensures Split(w + rest) == [w] + Split(rest)
  {
    var s := w + rest;
    assert StripLeft(s, IsSpace) == s by { assert !IsSpace(s[0]); }
    WordOfPrefix(w, rest);
    assert s[|w|..] == rest;
    SplitStep(s, 0);
  }

  /** Splitting words joined by single spaces gives the words back. */
  lemma {:induction false} SplitJoin(words: seq<string>)
    requires forall i :: 0 <= i < |words| ==> IsWord(words[i])
    ensures Split(Join(' ', words)) == words
  {
    if |words| == 0 {
    } else if |words| == 1 {
      SplitAfterWord(words[0], []);
      assert words[0] + [] == words[0];
    } else {
      var w := words[0];
      var rest := Join(' ', words[1..]);
      assert Join(' ', words) == w + ([' '] + rest);
      SplitAfterWord(w, [' '] + rest);
      assert StripLeft([' '] + rest, IsSpace) == StripLeft(rest, IsSpace);
      SplitIgnoresLeadingSpace(rest);
      SplitIgnoresLeadingSpace([' '] + rest);
      SplitJoin(words[1..]);
    }
  }

  /** `split(maxsplit=k)` with `k > 0` splits off a leading word followed
      by nothing or by whitespace. */
  lemma SplitMaxAfterWord(w: string, rest: string, k: nat)
    requires IsWord(w) && k > 0
    requires rest == [] || IsSpace(rest[0])
    ensures SplitMax(w + rest, k) == [w] + SplitMax(rest, k - 1)
  {
    var s := w + rest;
    assert StripLeft(s, IsSpace) == s by { assert !IsSpace(s[0]); }
    WordOfPrefix(w, rest);
    assert s[|w|..] == rest;
    SplitStep(s, k);
  }

  /** A leading space does not change `split(maxsplit=k)`. */
  lemma SplitMaxAfterSpace(s: string, k: nat)
    ensures SplitMax([' '] + s, k) == SplitMax(s, k)
  {
    assert ([' '] + s)[1..] == s;
    assert StripLeft([' '] + s, IsSpace) == StripLeft(s, IsSpace);
  }

  /** With no split left, a string without leading whitespace is kept whole. */
  lemma SplitMaxRemainder(s: string)
    requires s != [] && !IsSpace(s[0])
    ensures SplitMax(s, 0) == [s]
  {
  }

  /** The first and last characters of a join of non-empty words are those
      of its first and last words. */
  lemma {:induction false} JoinEnds(sep: char, words: seq<string>)
    requires |words| > 0
    requires forall i :: 0 <= i < |words| ==> words[i] != []
    ensures var j := Join(sep, words);
      && j != []
      && j[0] == words[0][0]
      && j[|j| - 1] == words[|words| - 1][|words[|words| - 1]| - 1]
  {
    if |words| > 1 {
      JoinEnds(sep, words[1..]);
    }
  }

  /** A trailing whitespace character, such as the newline `readlines`
      keeps, does not change a stripped line that starts with a non-space. */
  lemma StripTrailingSpace(s: string, c: char)
    requires s != [] && !IsSpace(s[0]) && IsSpace(c)
    ensures Strip(s + [c], IsSpace) == Strip(s, IsSpace)
  {
    assert StripLeft(s + [c], IsSpace) == s + [c];
    assert (s + [c])[..|s|] == s;
  }

  /** `s.replace(a, b)` for single characters `a` and `b`. */
  function Replace(s: string, a: char, b: char): (r: string)
    ensures |r| == |s|
    ensures forall i :: 0 <= i < |s| ==> r[i] == (if s[i] == a then b else s[i])
  {
    if s == [] then [] else [if s[0] == a then b else s[0]] + Replace(s[1..], a, b)
  }

  /** Replacing the separator of a join, when no word contains it, re-joins
      the same words with the new separator. */
  lemma {:induction false} ReplaceSeparator(words: seq<string>, a: char, b: char)
    requires forall i :: 0 <= i < |words| ==> a !in words[i]
    ensures Replace(Join(a, words), a, b) == Join(b, words)
  {
    if |words| == 0 {
    } else if |words| == 1 {
      var w := words[0];
      assert forall i :: 0 <= i < |w| ==> w[i] != a by {
        forall i | 0 <= i < |w| ensures w[i] != a { assert w[i] in w; }
      }
      assert Replace(w, a, b) == w;
    } else {
      var w := words[0];
      assert forall i :: 0 <= i < |w| ==> w[i] != a by {
        forall i | 0 <= i < |w| ensures w[i] != a { assert w[i] in w; }
      }
      ReplaceSeparator(words[1..], a, b);
      var rest := Join(a, words[1..]);
      var lhs := Replace(w + [a] + rest, a, b);
      assert lhs == w + [b] + Join(b, words[1..]) by {
        var rhs := w + [b] + Join(b, words[1..]);
        assert |lhs| == |rhs|;
        forall i | 0 <= i < |lhs| ensures lhs[i] == rhs[i] {
          if i < |w| {
          } else if i == |w| {
          } else {
            assert (w + [a] + rest)[i] == rest[i - |w| - 1];
            assert rhs[i] == Join(b, words[1..])[i - |w| - 1];
          }
        }
      }
    }
  }
}
